=== FILE: README.md ===
# AutoPackage release command, modelled in Dafny

`AutoPackageCommand` is a Visual Studio command that prepares a release of
the open solution. It does three things in order:

1. It reads the project's `[assembly: AssemblyVersion("…")]` declaration
   (`GetVersionTool` plus a split on `"`).
2. It stamps that version, a build date and a compact "output version" into
   the Inno Setup script `package\ProVersion\IssFiles\version.iss`
   (`SetVersionTool`: three regex replace passes).
3. It optionally starts a signing tool. It then runs `Pack_normal.bat`, waits
   for it, and optionally opens the packed-files folder and the distribution
   web page.

The model is pure. Every input the command takes from the IDE, the file
system, the package settings or the clock becomes a field of a `Workspace`.
Everything the command does to the outside world is an `Effect` in an ordered
trace. `Execute(w)` returns that trace together with whether the handler
completed or an exception escaped it.

Modules:

- `Text` covers the .NET string operations used by the command:
  - `Split` and `Join`;
  - `LastIndexOf`;
  - `Remove(start)`, which fails unless `start` is the index of a character;
  - `Replace(".", "")`;
  - `ToString("00")`.
- `Regex` covers the four patterns. Each pattern has the form
  *literal · greedy run over a class · literal*:
  - `Pattern(open, cls, close)` is the pattern;
  - `MatchLen` is the match at a position;
  - `FindFirst` is the leftmost match.
  - The closing literal never starts with a class character. Because of this,
    the greedy run is the match the backtracking engine finds (`Valid`).
- `RegexReplace` covers `Regex.Replace`: one left-to-right scan that replaces
  non-overlapping matches (`ReplaceAll`). It also states what "the field
  already holds its value" means (`Settled`).
- `VersionExtractor` covers `GetVersionTool` and the split of lines 117-123.
- `ScriptRewriter` covers `SetVersionTool`: the build stamp, the output
  version and the three passes.
- `ScriptLayout` views a script as plain text and fields of the three kinds,
  in any number and order, and states what `SetVersionTool` does to each
  piece.
- `ReleaseOrchestrator` covers the decision flow of `Execute`.

Two details of the code shape the model:

- `version.Remove(version.LastIndexOf('.'))` at line 186 throws
  `ArgumentOutOfRangeException` when the declared version has no dot, such as
  `AssemblyVersion("")`: it is then `Remove(-1)`. The model makes this the
  `Faulted` outcome, with no effects at all. The exception is raised before
  `version.iss` is written, before the signing tool and before the packing
  task.
- `DateTime.Now.Year.ToString("00")` at line 185 prints the full year. So the
  stamp for a calendar date is `MM/DD/YYYY`.

## Model

| member | source | states |
|---|---|---|
| Text.Split | AutoPackage/AutoPackageCommand.cs:121 | `Split` gives at least one piece, and no piece contains the separator |
| Text.JoinSplit | AutoPackage/AutoPackageCommand.cs:121 | joining the pieces of a split with the separator gives back the string |
| Text.SplitJoin | AutoPackage/AutoPackageCommand.cs:121 | splitting a join of separator-free pieces gives back exactly those pieces |
| Text.LastIndexOf | AutoPackage/AutoPackageCommand.cs:186 | the result is -1 exactly when the character is absent; otherwise the character is at that index and nowhere after it |
| Text.Remove | AutoPackage/AutoPackageCommand.cs:186 | `Remove(start)` succeeds exactly when `0 <= start < length`, and then it returns the prefix of length `start` that the removed tail completes |
| Text.Without | AutoPackage/AutoPackageCommand.cs:186 | `Replace(".", "")` leaves no dot and never lengthens the string |
| Text.WithoutCounts | AutoPackage/AutoPackageCommand.cs:186 | `Replace(".", "")` deletes every dot and keeps every other character as often as it occurs |
| Text.WithoutJoin | AutoPackage/AutoPackageCommand.cs:186 | deleting the separators of a join of separator-free pieces gives the pieces run together |
| Text.Format00 | AutoPackage/AutoPackageCommand.cs:185 | `ToString("00")` is all digits and at least two long, and exactly two long below 100 |
| Text.Format00Value | AutoPackage/AutoPackageCommand.cs:185 | the decimal value of `ToString("00")` is the number formatted |
| Regex.RunLen | AutoPackage/AutoPackageCommand.cs:190-194 | the run is the longest prefix of class characters: all of it is in the class, and the next character is not |
| Regex.MatchSound | AutoPackage/AutoPackageCommand.cs:201 | a match found by the scanner is in the pattern's language (open literal, class run, close literal) |
| Regex.MatchComplete | AutoPackage/AutoPackageCommand.cs:201 | every prefix in the pattern's language is the match found at that position, so the scanner misses nothing |
| Regex.MatchesOwnHit | AutoPackage/AutoPackageCommand.cs:187-195 | a field whose value is all class characters matches with exactly its own length, whatever follows it |
| Regex.FindFromLeast | AutoPackage/AutoPackageCommand.cs:201-203 | a scan from a position finds nothing before the match it returns, and returns nothing only when no later position matches |
| Regex.FindFirst | AutoPackage/AutoPackageCommand.cs:201-203 | the position found starts a match and no earlier position does; none is found only when no position matches |
| RegexReplace.ReplaceAll | AutoPackage/AutoPackageCommand.cs:187-195 | with a non-empty replacement the result is empty exactly when the input is |
| RegexReplace.ReplaceSkipsGap | AutoPackage/AutoPackageCommand.cs:187-195 | text before the leftmost match is copied unchanged |
| RegexReplace.ReplaceNoMatch | AutoPackage/AutoPackageCommand.cs:187-195 | a text in which the pattern matches nowhere is returned unchanged |
| RegexReplace.ReplaceAtFirstMatch | AutoPackage/AutoPackageCommand.cs:187-195 | the result is the text before the leftmost match, then the replacement, then the replaced rest after the match |
| RegexReplace.ReplaceAfterBlock | AutoPackage/AutoPackageCommand.cs:187-195 | a prefix in which no match can start is kept verbatim in front of the replaced rest |
| RegexReplace.ReplaceOwnHit | AutoPackage/AutoPackageCommand.cs:187-195 | a field at the start is replaced as a whole, and scanning resumes right after it |
| RegexReplace.ReplaceOneField | AutoPackage/AutoPackageCommand.cs:187-195 | a text with exactly one field of the pattern gets the replacement in its place, and the text around it is kept |
| RegexReplace.ReplaceMissesField | AutoPackage/AutoPackageCommand.cs:187-195 | a pass of one pattern leaves a field of another, separate pattern and the plain text around it unchanged |
| RegexReplace.NoMatchSurvives | AutoPackage/AutoPackageCommand.cs:187-195 | a pass of one field's pattern never creates a match of a guarded pattern where there was none |
| RegexReplace.SettledFirstField | AutoPackage/AutoPackageCommand.cs:187-195 | in a settled text the leftmost field matches exactly the new field and holds the new value |
| RegexReplace.SettledEveryField | AutoPackage/AutoPackageCommand.cs:187-195 | in a settled text every position where the pattern matches holds exactly the new field |
| RegexReplace.ReplaceIdempotent | AutoPackage/AutoPackageCommand.cs:190-195 | replacing with a field the pattern matches leaves a text that the same pass does not change again |
| RegexReplace.ReplaceKeepsSettled | AutoPackage/AutoPackageCommand.cs:187-195 | a pass of another, separate pattern keeps a settled text settled |
| VersionExtractor.GetVersionTool | AutoPackage/AutoPackageCommand.cs:200-206 | a match returned lies inside the text at its index and is a declaration `[assembly: AssemblyVersion("[0-9.]*")]` |
| VersionExtractor.GetVersionToolLeftmost | AutoPackage/AutoPackageCommand.cs:200-206 | the match is the leftmost declaration, with the greedy length; null is returned exactly when no position starts a declaration |
| VersionExtractor.DeclarationPieces | AutoPackage/AutoPackageCommand.cs:121-123 | a declaration split on `"` is exactly its head, the version and its tail |
| VersionExtractor.ExtractVersion | AutoPackage/AutoPackageCommand.cs:117-123 | a version is produced exactly when a declaration is found; it is made of digits and dots, and the declaration is built from it |
| VersionExtractor.SplitGuardAlwaysPasses | AutoPackage/AutoPackageCommand.cs:120-122 | a found declaration is never empty, holds exactly two `"` and splits into three pieces, so the checks of lines 120 and 122 always pass |
| VersionExtractor.ExtractLeadingDeclaration | AutoPackage/AutoPackageCommand.cs:117-123 | a text that opens with the declaration of `v` yields exactly `v` |
| VersionExtractor.ExtractExample | AutoPackage/AutoPackageCommand.cs:119-123 | `[assembly: AssemblyVersion("1.4.4.13")]` yields `1.4.4.13` |
| ScriptRewriter.BuildStamp | AutoPackage/AutoPackageCommand.cs:185 | the stamp is made of digits and slashes and has three `/`-separated fields |
| ScriptRewriter.BuildStampRoundTrip | AutoPackage/AutoPackageCommand.cs:185 | the fields of the stamp read back as the month, the day and the year, in that order |
| ScriptRewriter.BuildStampShape | AutoPackage/AutoPackageCommand.cs:185 | for a calendar date with a four-digit year the stamp is ten characters long, with slashes at positions 2 and 5 |
| ScriptRewriter.OutputVersion | AutoPackage/AutoPackageCommand.cs:186 | the derivation fails exactly when the version has no dot; otherwise the result has no dot and is shorter than the version |
| ScriptRewriter.OutputVersionDropsRevision | AutoPackage/AutoPackageCommand.cs:186 | for `a.b.….z` with dot-free segments the result is the segments before the last one, run together |
| ScriptRewriter.OutputVersionDigits | AutoPackage/AutoPackageCommand.cs:186 | the output version of a digits-and-dots version with a dot is all digits |
| ScriptRewriter.OutputVersionExample | AutoPackage/AutoPackageCommand.cs:186 | `1.4.4.13` gives `144` |
| ScriptRewriter.SetVersionTool | AutoPackage/AutoPackageCommand.cs:184-198 | the rewrite fails exactly when the version has no dot; otherwise the result is empty exactly when the input is |
| ScriptRewriter.SetVersionSettles | AutoPackage/AutoPackageCommand.cs:184-198 | after the three passes the script is settled for each field with its new value (the version, the build stamp, the output version): a further pass changes nothing |
| ScriptRewriter.SetVersionIdempotent | AutoPackage/AutoPackageCommand.cs:184-198 | rewriting the rewritten script with the same version and date gives it back unchanged |
| ScriptRewriter.SetVersionFields | AutoPackage/AutoPackageCommand.cs:184-198 | in the result every field of each kind, wherever it matches, is exactly the new field: the version, the build stamp or the output version |
| ScriptRewriter.SetVersionOnlyVersionField | AutoPackage/AutoPackageCommand.cs:189-191 | a script whose only field is a version field gets the new version there, and every other character is kept |
| ScriptRewriter.SetVersionOnlyBuildField | AutoPackage/AutoPackageCommand.cs:185-193 | a script whose only field is a build field gets the build stamp there, and every other character is kept |
| ScriptRewriter.SetVersionOnlyOutputField | AutoPackage/AutoPackageCommand.cs:186-195 | a script whose only field is an output-version field gets the output version there, and every other character is kept |
| ScriptRewriter.SetVersionThreeFields | AutoPackage/AutoPackageCommand.cs:184-198 | a script with one field of each kind, in the order version field, build field, output field, gets the three new values in those places, and the text outside the fields is kept |
| ScriptLayout.PassOverPieces | AutoPackage/AutoPackageCommand.cs:187-195 | one replace pass gives every field of its own kind the new value, and copies plain text and fields of the other kinds unchanged |
| ScriptLayout.SetVersionLayout | AutoPackage/AutoPackageCommand.cs:184-198 | a script made of plain text and fields of the three kinds, in any number and any order, comes back with each piece in its place: every field holds its new value (the version, the build stamp or the output version) and every piece of plain text is unchanged |
| ScriptLayout.SetVersionOutputFirst | AutoPackage/AutoPackageCommand.cs:184-198 | a script whose output-version field comes before its version field gets both new values in place, and the text around them is kept |
| ScriptRewriter.SetVersionNoFields | AutoPackage/AutoPackageCommand.cs:187-195 | a script with none of the three fields comes back unchanged |
| ReleaseOrchestrator.SyncPlan | AutoPackage/AutoPackageCommand.cs:115-127 | the version step throws exactly when a declared version without a dot meets an existing `version.iss`; a rewrite is empty exactly when the script is |
| ReleaseOrchestrator.Proceed | AutoPackage/AutoPackageCommand.cs:128-168 | the run faults exactly when the version step threw, and then it has no effects; otherwise it completes |
| ReleaseOrchestrator.Execute | AutoPackage/AutoPackageCommand.cs:99-179 | without an open solution the run is exactly the "Please open a solution!" message, which never appears otherwise; the run faults, with no effects, exactly when a solution is open and the declared version has no dot; with a dotted version declared, `version.iss` is overwritten with the rewrite exactly when the script is non-empty, and "Change version.iss error!" is shown exactly when it is empty; every write goes to `version.iss` and is exactly the rewrite of its non-empty script, so with the no-repeat clause there is at most one write; the written text leaves every field holding the declared version, the build stamp and the output version; "Change version.iss error!" means a dotted version and an empty `version.iss`; in a completed run with a solution open the signing tool starts exactly when its path is set and exists, followed directly by a 1000 ms sleep, and a sleep only ever follows the signing tool; every completed run with a solution starts the packing script, followed directly by the wait for it; the folder and the web page are opened exactly when the run completes with a solution open and their settings ask for it, and only after that wait, the folder before the web page; all version-step effects come before all signing effects, which come before all packing effects; no effect other than these occurs, and none occurs twice |
| ReleaseOrchestrator.EmptyDeclarationFaults | AutoPackage/AutoPackageCommand.cs:117-126 | an `AssemblyVersion("")` declaration at the start of AssemblyInfo.cs makes the command fail with no effects |

## Left out

- Visual Studio integration is not modelled. This covers command registration, `InitializeAsync`, and the DTE and Solution Explorer lookups. It is IDE plumbing: the solution name and the selected project's files are inputs.
- Path resolution is not modelled: `Path.GetFileName`, `GetDirectoryName`, `Directory.GetParent` and `Path.Combine` are library semantics. The parent folder is the input `source`, and the fixed suffixes are constants.
- File I/O is not modelled. A missing file is `None` and an existing one is its text. `File.WriteAllText` is the `WriteIss` effect.
- `Process.Start`, `WaitForExit`, `Thread.Sleep` and the `Task.Factory.StartNew` background task are modelled only as effects in their order. Their threading is not modelled. In particular, the packing task runs concurrently with whatever follows the command.
- `Console.WriteLine` logging is not modelled, because it has no effect on the outcome.
- The settings class `AutoPackageCommandPackage` is not part of this model. `SignToolPath`, `DrumpPackedFiles`, `DrumpToWeb` and the existence of the sign-tool file are inputs.
- `DateTime.Now` is read three times at line 185. The model reads it once, as one `Date`, so a stamp taken across midnight is not modelled.
- The general .NET regex engine is not modelled. Only the shape *literal · class run · literal* used by the four patterns is modelled.
- ScriptRewriter.SetVersionTool: `$` substitutions in replacement strings are not modelled. The replacement is inserted literally. The versions and stamps that reach it are digits, dots and slashes only, so this makes no difference.
- ReleaseOrchestrator.Execute: a `null` `dte2` or a missing selected project throws at lines 100 and 104-105, and a selected item that is not a project (such as the solution node) makes `project` null at line 105 and throws at line 111; all of these come before any modelled step. A `null` settings object throws at line 147: after the `version.iss` write of line 140 and before the signing tool. These are host failures, and the model assumes a working IDE and a settings object.
- ReleaseOrchestrator.Execute: every file read, the `version.iss` write and every `Process.Start` are assumed to succeed. Two consequences are not modelled. If the write at line 140 throws (a read-only `version.iss`, say), the exception leaves the handler before lines 146-168, so nothing is signed or packed. If `Pack_normal.bat` is missing, `Process.Start` at line 155 throws inside `Task.Run`, the `await` at line 154 rethrows it, and lines 157-166 never run: no wait, no folder and no web page. The model's "exactly when" clauses for the folder and the web page hold only under this assumption.
- Text encoding is not modelled: scripts are the decoded text. `File.ReadAllText` at lines 116 and 125 drops a byte-order mark, decodes bytes without one as UTF-8 and turns invalid sequences into U+FFFD. `File.WriteAllText` at line 140 writes UTF-8 without a byte-order mark. So a `version.iss` saved with a byte-order mark, or in an ANSI code page with non-ASCII text, can change outside the three fields. The rows that say the rest of the script is kept speak of the decoded text.

=== FILE: orchestrator.dfy ===
/**
 The decision flow of `Execute`: the command that stamps the project's
 version into `version.iss`, starts the signing tool, runs the packing script
 and opens its results. Everything the command asks of the IDE, the file
 system and the clock is an input; everything it does to the outside world is
 an effect, in the order it happens.
 */
module ReleaseOrchestrator {
  import opened Text
  import opened Regex
  import opened RegexReplace
  import opened VersionExtractor
  import opened ScriptRewriter

  /** Paths below the folder that holds both `src` and `package`. */
  const IssPath := "\\package\\ProVersion\\IssFiles\\version.iss"
  const PackScript := "\\package\\ProVersion\\Pack_normal.bat"
  const PackedFolder := "\\package\\ProVersion\\PackedFiles"
  const DistributionUrl := "https://dist.wangxutech.com/admin"

  const OpenSolutionMessage := "Please open a solution!"
  const IssErrorMessage := "Change version.iss error!"

  /** What `Execute` reads. A file that does not exist is `None`. */
  datatype Workspace = Workspace(
    solutionName: string,         // file name of the open solution, empty when there is none
    source: string,               // the parent folder of the solution's folder
    assemblyInfo: Option<string>, // Properties\AssemblyInfo.cs of the selected project
    versionIss: Option<string>,   // package\ProVersion\IssFiles\version.iss
    signToolPath: string,         // the package setting SignToolPath
    signToolExists: bool,         // whether a file exists at signToolPath
    drumpPackedFiles: bool,       // the package setting DrumpPackedFiles
    drumpToWeb: bool,             // the package setting DrumpToWeb
    now: Date)

  /** What `Execute` does to the outside world. */
  datatype Effect =
    | ShowError(message: string)
    | WriteIss(path: string, text: string)
    | StartSignTool(path: string)
    | Sleep(ms: nat)
    | StartPack(path: string)
    | WaitForPack
    | OpenFolder(path: string)
    | OpenUrl(url: string)

  /** `Faulted`: an exception escaped the command handler. */
  datatype Outcome = Completed | Faulted

  datatype Run = Run(effects: seq<Effect>, outcome: Outcome)

  predicate SolutionOpen(w: Workspace) {
    |w.solutionName| > 0
  }

  /** The version declared by the project, when both files exist and a declaration is found. */
  function DeclaredVersion(w: Workspace): Option<string> {
    match (w.assemblyInfo, w.versionIss)
    case (Some(info), Some(_)) => ExtractVersion(info)
    case _ => None
  }

  /** What the version step of lines 115-143 comes to. */
  datatype Sync =
    | Skip                    // a file is missing or no declaration was found
    | Throw                   // `SetVersionTool` threw
    | Rewritten(text: string) // `SetVersionTool` returned `text`

  /** Lines 115-127: rewrite `version.iss` with the declared version, when both
      files exist and a declaration was found. */
  function SyncPlan(w: Workspace, declared: Option<string>): (r: Sync)
    ensures r.Throw? <==> declared.Some? && w.versionIss.Some? && '.' !in declared.value
    ensures r.Rewritten? ==> declared.Some? && w.versionIss.Some? && (|r.text| == 0 <==> |w.versionIss.value| == 0)
  {
    match (declared, w.versionIss)
    case (Some(version), Some(iss)) =>
      (match SetVersionTool(iss, version, w.now)
       case None => Throw
       case Some(text) => Rewritten(text))
    case _ => Skip
  }

  /** Lines 130-141: an empty rewrite is reported, any other is written back. */
  function SyncEffects(w: Workspace, plan: Sync): seq<Effect> {
    match plan
    case Rewritten(text) =>
      if |text| == 0 then [ShowError(IssErrorMessage)] else [WriteIss(w.source + IssPath, text)]
    case _ => []
  }

  /** Lines 146-151: start the signing tool and give it a second, when it is configured and present. */
  function SignStep(w: Workspace): seq<Effect> {
    if |w.signToolPath| > 0 && w.signToolExists then [StartSignTool(w.signToolPath), Sleep(1000)] else []
  }

  /** Lines 153-166: run the packing script, wait for it, then open what was asked for. */
  function PackStep(w: Workspace): seq<Effect> {
    [StartPack(w.source + PackScript), WaitForPack]
    + (if w.drumpPackedFiles then [OpenFolder(w.source + PackedFolder)] else [])
    + (if w.drumpToWeb then [OpenUrl(DistributionUrl)] else [])
  }

  /** Lines 128-168: what follows the version step, whatever it came to. */
  function Proceed(w: Workspace, plan: Sync): (r: Run)
    ensures r.outcome.Faulted? <==> plan.Throw?
    ensures r.outcome.Faulted? ==> r.effects == []
  {
    if plan.Throw? then Run([], Faulted)
    else Run(SyncEffects(w, plan) + SignStep(w) + PackStep(w), Completed)
  }

  /** `Execute`: the effects of one run of the command, in order, and whether
      it completed. */
  function Execute(w: Workspace): (r: Run)
    // Lines 103 and 171-179: without a solution only the message is shown.
    ensures !SolutionOpen(w) <==> r == Run([ShowError(OpenSolutionMessage)], Completed)
    ensures SolutionOpen(w) ==> ShowError(OpenSolutionMessage) !in r.effects
    // Line 186: `Remove(-1)` throws on a declared version without a dot, before any effect.
    ensures r.outcome.Faulted? <==>
      SolutionOpen(w) && DeclaredVersion(w).Some? && '.' !in DeclaredVersion(w).value
    ensures r.outcome.Faulted? ==> r.effects == []
    // Lines 130-141: the rewrite is written back, or reported when it is empty.
    ensures SolutionOpen(w) && DeclaredVersion(w).Some? && '.' in DeclaredVersion(w).value ==>
      && w.versionIss.Some?
      && var iss := w.versionIss.value;
      && var text := SetVersionTool(iss, DeclaredVersion(w).value, w.now).value;
      && r.outcome.Completed?
      && (|iss| > 0 <==> WriteIss(w.source + IssPath, text) in r.effects)
      && (|iss| == 0 <==> ShowError(IssErrorMessage) in r.effects)
    ensures ShowError(IssErrorMessage) in r.effects ==>
      SolutionOpen(w) && DeclaredVersion(w).Some? && '.' in DeclaredVersion(w).value && w.versionIss == Some("")
    ensures forall i :: 0 <= i < |r.effects| && r.effects[i].WriteIss? ==>
      && r.effects[i].path == w.source + IssPath
      && DeclaredVersion(w).Some?
      && var v := DeclaredVersion(w).value;
      && '.' in v
      && w.versionIss.Some? && |w.versionIss.value| > 0
      && r.effects[i].text == SetVersionTool(w.versionIss.value, v, w.now).value
      && Settled(r.effects[i].text, VersionField, v)
      && Settled(r.effects[i].text, BuildField, BuildStamp(w.now))
      && Settled(r.effects[i].text, OutputField, OutputVersion(v).value)
    // Lines 146-151: the signing tool, then a one-second sleep.
    ensures StartSignTool(w.signToolPath) in r.effects <==>
      r.outcome.Completed? && SolutionOpen(w) && |w.signToolPath| > 0 && w.signToolExists
    ensures forall i :: 0 <= i < |r.effects| && r.effects[i].StartSignTool? ==>
      r.effects[i].path == w.signToolPath && i + 1 < |r.effects| && r.effects[i + 1] == Sleep(1000)
    ensures forall i :: 0 <= i < |r.effects| && r.effects[i].Sleep? ==> 0 < i && r.effects[i - 1].StartSignTool?
    // Lines 153-159: the packing script always runs, and is waited for.
    ensures r.outcome.Completed? && SolutionOpen(w) ==> StartPack(w.source + PackScript) in r.effects
    ensures forall i :: 0 <= i < |r.effects| && r.effects[i].StartPack? ==>
      i + 1 < |r.effects| && r.effects[i + 1] == WaitForPack
    // Lines 160-166: what is opened, the folder before the web page, and only after the wait.
    ensures OpenFolder(w.source + PackedFolder) in r.effects <==>
      r.outcome.Completed? && SolutionOpen(w) && w.drumpPackedFiles
    ensures OpenUrl(DistributionUrl) in r.effects <==>
      r.outcome.Completed? && SolutionOpen(w) && w.drumpToWeb
    ensures OpensInOrder(r.effects)
    // Lines 115-166: version step, then signing step, then packing step.
    ensures InStepOrder(r.effects)
    // Nothing else happens, and nothing happens twice.
    ensures forall i :: 0 <= i < |r.effects| ==> r.effects[i].WriteIss? || r.effects[i] in Expected(w)
    ensures Distinct(r.effects)
  {
    if !SolutionOpen(w) then Run([ShowError(OpenSolutionMessage)], Completed)
    else
      var plan := SyncPlan(w, DeclaredVersion(w));
      ProceedNeverAsksForSolution(w, plan);
      ProceedSignGate(w, plan);
      ProceedPackThenWait(w, plan);
      ProceedOpens(w, plan);
      ProceedOpensInOrder(w, plan);
      ProceedStepOrder(w, plan);
      ProceedOnlyExpected(w, plan);
      ProceedDistinct(w, plan);
      DeclaredIssWriteOrError(w);
      DeclaredIssError(w);
      DeclaredWritesSettled(w);
      Proceed(w, plan)
  }

  // ---------------------------------------------------------------------------
  // Where each kind of effect can come from

  /** Every effect the command can have, apart from writing `version.iss`. */
  function Expected(w: Workspace): set<Effect> {
    {ShowError(OpenSolutionMessage), ShowError(IssErrorMessage), StartSignTool(w.signToolPath), Sleep(1000),
     StartPack(w.source + PackScript), WaitForPack, OpenFolder(w.source + PackedFolder), OpenUrl(DistributionUrl)}
  }

  predicate SyncEffect(e: Effect) { e.ShowError? || e.WriteIss? }
  predicate SignEffect(e: Effect) { e.StartSignTool? || e.Sleep? }
  predicate PackEffect(e: Effect) { e.StartPack? || e.WaitForPack? || e.OpenFolder? || e.OpenUrl? }

  /** The step an effect belongs to: 0 for the version step (and the message
      shown without a solution), 1 for the signing step, 2 for the packing step. */
  function StepOf(e: Effect): nat {
    if SyncEffect(e) then 0 else if SignEffect(e) then 1 else 2
  }

  /** Effects of an earlier step never follow effects of a later one. */
  predicate InStepOrder(e: seq<Effect>) {
    forall i, j :: 0 <= i < j < |e| ==> StepOf(e[i]) <= StepOf(e[j])
  }

  /** A completed run is the three steps in order. */
  lemma Steps(w: Workspace, plan: Sync)
    requires !plan.Throw?
    ensures Proceed(w, plan).effects == SyncEffects(w, plan) + SignStep(w) + PackStep(w)
    ensures forall i :: 0 <= i < |SyncEffects(w, plan)| ==> SyncEffect(SyncEffects(w, plan)[i])
    ensures forall i :: 0 <= i < |SignStep(w)| ==> SignEffect(SignStep(w)[i])
    ensures forall i :: 0 <= i < |PackStep(w)| ==> PackEffect(PackStep(w)[i])
  {
  }

  /** Index arithmetic of a three-part trace. */
  lemma ThreeParts(a: seq<Effect>, b: seq<Effect>, c: seq<Effect>, i: nat)
    requires i < |a + b + c|
    ensures i < |a| ==> (a + b + c)[i] == a[i]
    ensures |a| <= i < |a| + |b| ==> (a + b + c)[i] == b[i - |a|]
    ensures |a| + |b| <= i ==> (a + b + c)[i] == c[i - |a| - |b|]
  {
  }

  // ---------------------------------------------------------------------------
  // The flow after the solution check, for any declared version

  lemma ProceedNeverAsksForSolution(w: Workspace, plan: Sync)
    ensures ShowError(OpenSolutionMessage) !in Proceed(w, plan).effects
  {
    if !plan.Throw? {
      Steps(w, plan);
      var e := Proceed(w, plan).effects;
      forall i | 0 <= i < |e|
        ensures e[i] != ShowError(OpenSolutionMessage)
      {
        ThreeParts(SyncEffects(w, plan), SignStep(w), PackStep(w), i);
        assert OpenSolutionMessage[0] != IssErrorMessage[0];
      }
    }
  }

  lemma ProceedSignGate(w: Workspace, plan: Sync)
    ensures var e := Proceed(w, plan).effects;
      StartSignTool(w.signToolPath) in e <==>
        Proceed(w, plan).outcome.Completed? && |w.signToolPath| > 0 && w.signToolExists
    ensures var e := Proceed(w, plan).effects;
      forall i :: 0 <= i < |e| && e[i].StartSignTool? ==>
        e[i].path == w.signToolPath && i + 1 < |e| && e[i + 1] == Sleep(1000)
    ensures var e := Proceed(w, plan).effects;
      forall i :: 0 <= i < |e| && e[i].Sleep? ==> 0 < i && e[i - 1].StartSignTool?
  {
    var e := Proceed(w, plan).effects;
    if !plan.Throw? {
      Steps(w, plan);
      var k := |SyncEffects(w, plan)|;
      if |w.signToolPath| > 0 && w.signToolExists {
        SignAt(w, plan);
      }
      forall i | 0 <= i < |e| && (e[i].StartSignTool? || e[i].Sleep?)
        ensures SignStep(w) != [] && (e[i].StartSignTool? ==> i == k) && (e[i].Sleep? ==> i == k + 1)
      {
        ThreeParts(SyncEffects(w, plan), SignStep(w), PackStep(w), i);
      }
      if SignStep(w) != [] {
        SignAt(w, plan);
      }
    }
  }

  /** Where the signing step sits in a completed run that has one. */
  lemma SignAt(w: Workspace, plan: Sync)
    requires !plan.Throw? && |w.signToolPath| > 0 && w.signToolExists
    ensures var e := Proceed(w, plan).effects;
      var k := |SyncEffects(w, plan)|;
      && k + 1 < |e| && e[k] == StartSignTool(w.signToolPath) && e[k + 1] == Sleep(1000)
  {
    Steps(w, plan);
    var sync, sign, pack := SyncEffects(w, plan), SignStep(w), PackStep(w);
    ThreeParts(sync, sign, pack, |sync|);
    ThreeParts(sync, sign, pack, |sync| + 1);
  }

  lemma ProceedPackThenWait(w: Workspace, plan: Sync)
    ensures Proceed(w, plan).outcome.Completed? ==> StartPack(w.source + PackScript) in Proceed(w, plan).effects
    ensures var e := Proceed(w, plan).effects;
      forall i :: 0 <= i < |e| && e[i].StartPack? ==> i + 1 < |e| && e[i + 1] == WaitForPack
  {
    var e := Proceed(w, plan).effects;
    if !plan.Throw? {
      Steps(w, plan);
      var sync, sign, pack := SyncEffects(w, plan), SignStep(w), PackStep(w);
      var k := |sync| + |sign|;
      ThreeParts(sync, sign, pack, k);
      ThreeParts(sync, sign, pack, k + 1);
      assert e[k] == StartPack(w.source + PackScript) && e[k + 1] == WaitForPack;
      forall i | 0 <= i < |e| && e[i].StartPack?
        ensures i == k
      {
        PackPlace(w, plan, i);
      }
    }
  }

  /** Only the packing step opens anything. */
  lemma OpensOnlyInPack(w: Workspace, plan: Sync, x: Effect)
    requires !plan.Throw? && (x.OpenFolder? || x.OpenUrl?)
    ensures x in Proceed(w, plan).effects <==> x in PackStep(w)
  {
    Steps(w, plan);
    assert x !in SyncEffects(w, plan);
    assert x !in SignStep(w);
  }

  lemma ProceedOpens(w: Workspace, plan: Sync)
    ensures OpenFolder(w.source + PackedFolder) in Proceed(w, plan).effects <==>
      Proceed(w, plan).outcome.Completed? && w.drumpPackedFiles
    ensures OpenUrl(DistributionUrl) in Proceed(w, plan).effects <==>
      Proceed(w, plan).outcome.Completed? && w.drumpToWeb
  {
    if !plan.Throw? {
      var folder, web := OpenFolder(w.source + PackedFolder), OpenUrl(DistributionUrl);
      OpensOnlyInPack(w, plan, folder);
      OpensOnlyInPack(w, plan, web);
      var opens := (if w.drumpPackedFiles then [folder] else []) + (if w.drumpToWeb then [web] else []);
      assert PackStep(w) == [StartPack(w.source + PackScript), WaitForPack] + opens;
      assert folder in PackStep(w) <==> folder in opens;
      assert web in PackStep(w) <==> web in opens;
    }
  }

  /** Both opens follow the wait for the packing script, and the folder comes
      before the web page. */
  predicate OpensInOrder(e: seq<Effect>) {
    && (forall i, j :: 0 <= i < |e| && 0 <= j < |e| && (e[i].OpenFolder? || e[i].OpenUrl?) && e[j] == WaitForPack ==> j < i)
    && (forall i, j :: 0 <= i < |e| && 0 <= j < |e| && e[i].OpenFolder? && e[j].OpenUrl? ==> i < j)
  }

  lemma ProceedOpensInOrder(w: Workspace, plan: Sync)
    ensures OpensInOrder(Proceed(w, plan).effects)
  {
    var e := Proceed(w, plan).effects;
    forall i, j | 0 <= i < |e| && 0 <= j < |e| && (e[i].OpenFolder? || e[i].OpenUrl?) && e[j] == WaitForPack
      ensures j < i
    {
      PackPlace(w, plan, i);
      PackPlace(w, plan, j);
    }
    forall i, j | 0 <= i < |e| && 0 <= j < |e| && e[i].OpenFolder? && e[j].OpenUrl?
      ensures i < j
    {
      OpenPlace(w, plan, i);
      OpenPlace(w, plan, j);
    }
  }

  /** Where in a run each effect of the packing step sits. */
  lemma PackPlace(w: Workspace, plan: Sync, i: nat)
    requires i < |Proceed(w, plan).effects|
    ensures var e := Proceed(w, plan).effects;
      var k := |SyncEffects(w, plan)| + |SignStep(w)|;
      && (e[i].StartPack? ==> i == k)
      && (e[i] == WaitForPack ==> i == k + 1)
      && (e[i].OpenFolder? || e[i].OpenUrl? ==> i >= k + 2)
  {
    Steps(w, plan);
    ThreeParts(SyncEffects(w, plan), SignStep(w), PackStep(w), i);
  }

  /** Where the two opens sit: the folder right after the wait, the web page after the folder. */
  lemma OpenPlace(w: Workspace, plan: Sync, i: nat)
    requires i < |Proceed(w, plan).effects|
    ensures var e := Proceed(w, plan).effects;
      var k := |SyncEffects(w, plan)| + |SignStep(w)|;
      && (e[i].OpenFolder? ==> i == k + 2)
      && (e[i].OpenUrl? ==> i == k + 2 + (if w.drumpPackedFiles then 1 else 0))
  {
    Steps(w, plan);
    ThreeParts(SyncEffects(w, plan), SignStep(w), PackStep(w), i);
  }

  lemma ProceedStepOrder(w: Workspace, plan: Sync)
    ensures InStepOrder(Proceed(w, plan).effects)
  {
    var e := Proceed(w, plan).effects;
    if !plan.Throw? {
      Steps(w, plan);
      var sync, sign, pack := SyncEffects(w, plan), SignStep(w), PackStep(w);
      forall i | 0 <= i < |e|
        ensures StepOf(e[i]) == 0 <==> i < |sync|
        ensures StepOf(e[i]) == 1 <==> |sync| <= i < |sync| + |sign|
      {
        ThreeParts(sync, sign, pack, i);
      }
    }
  }

  lemma ProceedIssWriteOrError(w: Workspace, text: string)
    ensures var e := Proceed(w, Rewritten(text)).effects;
      && Proceed(w, Rewritten(text)).outcome.Completed?
      && (|text| > 0 <==> WriteIss(w.source + IssPath, text) in e)
      && (|text| == 0 <==> ShowError(IssErrorMessage) in e)
  {
    var plan := Rewritten(text);
    var e := Proceed(w, plan).effects;
    Steps(w, plan);
    var sync, sign, pack := SyncEffects(w, plan), SignStep(w), PackStep(w);
    assert |sync| == 1 && e[0] == sync[0];
    forall i | 0 <= i < |e|
      ensures e[i].WriteIss? || e[i].ShowError? ==> i == 0
    {
      ThreeParts(sync, sign, pack, i);
    }
  }

  /** The error message of the version step is shown only for an empty rewrite. */
  lemma ProceedIssErrorOnlyEmpty(w: Workspace, plan: Sync)
    ensures ShowError(IssErrorMessage) in Proceed(w, plan).effects ==> plan == Rewritten("")
  {
    var e := Proceed(w, plan).effects;
    if ShowError(IssErrorMessage) in e {
      Steps(w, plan);
      var i :| 0 <= i < |e| && e[i] == ShowError(IssErrorMessage);
      ThreeParts(SyncEffects(w, plan), SignStep(w), PackStep(w), i);
      assert IssErrorMessage != OpenSolutionMessage;
    }
  }

  /** A run has no effect outside `Expected` but the write. */
  lemma ProceedOnlyExpected(w: Workspace, plan: Sync)
    ensures var e := Proceed(w, plan).effects;
      forall i :: 0 <= i < |e| ==> e[i].WriteIss? || e[i] in Expected(w)
  {
    var e := Proceed(w, plan).effects;
    if !plan.Throw? {
      Steps(w, plan);
      var sync, sign, pack := SyncEffects(w, plan), SignStep(w), PackStep(w);
      forall i | 0 <= i < |e|
        ensures e[i].WriteIss? || e[i] in Expected(w)
      {
        ThreeParts(sync, sign, pack, i);
      }
    }
  }

  predicate Distinct(e: seq<Effect>) {
    forall i, j :: 0 <= i < j < |e| ==> e[i] != e[j]
  }

  /** No effect of a run happens twice. */
  lemma ProceedDistinct(w: Workspace, plan: Sync)
    ensures Distinct(Proceed(w, plan).effects)
  {
    if !plan.Throw? {
      Steps(w, plan);
      PackDistinct(w);
      DistinctSteps(SyncEffects(w, plan), SignStep(w), PackStep(w));
    }
  }

  lemma PackDistinct(w: Workspace)
    ensures Distinct(PackStep(w))
  {
    var folder, web := OpenFolder(w.source + PackedFolder), OpenUrl(DistributionUrl);
    var start := [StartPack(w.source + PackScript), WaitForPack];
    if w.drumpPackedFiles && w.drumpToWeb {
      assert PackStep(w) == start + [folder] + [web];
    } else if w.drumpPackedFiles {
      assert PackStep(w) == start + [folder] + [];
    } else if w.drumpToWeb {
      assert PackStep(w) == start + [] + [web];
    } else {
      assert PackStep(w) == start + [] + [];
    }
  }

  /** Three repetition-free steps whose effects are of different kinds make a
      repetition-free run. */
  lemma DistinctSteps(a: seq<Effect>, b: seq<Effect>, c: seq<Effect>)
    requires Distinct(a) && Distinct(b) && Distinct(c)
    requires forall i :: 0 <= i < |a| ==> SyncEffect(a[i])
    requires forall i :: 0 <= i < |b| ==> SignEffect(b[i])
    requires forall i :: 0 <= i < |c| ==> PackEffect(c[i])
    ensures Distinct(a + b + c)
  {
    var e := a + b + c;
    forall i, j | 0 <= i < j < |e|
      ensures e[i] != e[j]
    {
      ThreeParts(a, b, c, i);
      ThreeParts(a, b, c, j);
    }
  }

  lemma ProceedWritesRewrite(w: Workspace, plan: Sync)
    ensures var e := Proceed(w, plan).effects;
      forall i :: 0 <= i < |e| && e[i].WriteIss? ==>
        e[i].path == w.source + IssPath && plan == Rewritten(e[i].text) && |e[i].text| > 0
  {
    var e := Proceed(w, plan).effects;
    if !plan.Throw? {
      Steps(w, plan);
      var sync, sign, pack := SyncEffects(w, plan), SignStep(w), PackStep(w);
      forall i | 0 <= i < |e| && e[i].WriteIss?
        ensures e[i].path == w.source + IssPath && plan == Rewritten(e[i].text) && |e[i].text| > 0
      {
        ThreeParts(sync, sign, pack, i);
      }
    }
  }

  // ---------------------------------------------------------------------------
  // The version step of the declared version

  /** Once a version with a dot is declared, `version.iss` is overwritten with
      the rewritten script when the script is not empty, and the error message is
      shown instead when it is. */
  lemma DeclaredIssWriteOrError(w: Workspace)
    ensures DeclaredVersion(w).Some? && '.' in DeclaredVersion(w).value ==>
      && w.versionIss.Some?
      && var iss := w.versionIss.value;
      && var text := SetVersionTool(iss, DeclaredVersion(w).value, w.now).value;
      && var run := Proceed(w, SyncPlan(w, DeclaredVersion(w)));
      && run.outcome.Completed?
      && (|iss| > 0 <==> WriteIss(w.source + IssPath, text) in run.effects)
      && (|iss| == 0 <==> ShowError(IssErrorMessage) in run.effects)
  {
    if DeclaredVersion(w).Some? && '.' in DeclaredVersion(w).value {
      var text := SetVersionTool(w.versionIss.value, DeclaredVersion(w).value, w.now).value;
      assert SyncPlan(w, DeclaredVersion(w)) == Rewritten(text);
      ProceedIssWriteOrError(w, text);
    }
  }

  /** The error message of the version step means a dotted version was
      declared and `version.iss` is empty. */
  lemma DeclaredIssError(w: Workspace)
    ensures ShowError(IssErrorMessage) in Proceed(w, SyncPlan(w, DeclaredVersion(w))).effects ==>
      DeclaredVersion(w).Some? && '.' in DeclaredVersion(w).value && w.versionIss == Some("")
  {
    ProceedIssErrorOnlyEmpty(w, SyncPlan(w, DeclaredVersion(w)));
  }

  /** What is written to `version.iss` is exactly the rewrite of its non-empty
      text, and carries the declared version, the build stamp of `now` and the
      output version in its fields. */
  lemma DeclaredWritesSettled(w: Workspace)
    ensures var e := Proceed(w, SyncPlan(w, DeclaredVersion(w))).effects;
      forall i :: 0 <= i < |e| && e[i].WriteIss? ==>
        && e[i].path == w.source + IssPath
        && DeclaredVersion(w).Some?
        && var v := DeclaredVersion(w).value;
        && '.' in v
        && w.versionIss.Some? && |w.versionIss.value| > 0
        && e[i].text == SetVersionTool(w.versionIss.value, v, w.now).value
        && Settled(e[i].text, VersionField, v)
        && Settled(e[i].text, BuildField, BuildStamp(w.now))
        && Settled(e[i].text, OutputField, OutputVersion(v).value)
  {
    var e := Proceed(w, SyncPlan(w, DeclaredVersion(w))).effects;
    ProceedWritesRewrite(w, SyncPlan(w, DeclaredVersion(w)));
    forall i | 0 <= i < |e| && e[i].WriteIss?
      ensures && e[i].path == w.source + IssPath
        && DeclaredVersion(w).Some?
        && var v := DeclaredVersion(w).value;
        && '.' in v
        && w.versionIss.Some? && |w.versionIss.value| > 0
        && e[i].text == SetVersionTool(w.versionIss.value, v, w.now).value
        && Settled(e[i].text, VersionField, v)
        && Settled(e[i].text, BuildField, BuildStamp(w.now))
        && Settled(e[i].text, OutputField, OutputVersion(v).value)
    {
      var v := DeclaredVersion(w).value;
      SetVersionSettles(w.versionIss.value, v, w.now);
    }
  }

  // ---------------------------------------------------------------------------
  // Examples

  /** An `AssemblyVersion("")` declaration, which the pattern accepts, makes the command fail. */
  lemma EmptyDeclarationFaults(w: Workspace, rest: string)
    requires SolutionOpen(w) && w.versionIss.Some?
    requires w.assemblyInfo == Some(Hit(AssemblyVersionDecl, "") + rest)
    ensures Execute(w) == Run([], Faulted)
  {
    ExtractLeadingDeclaration("", rest);
  }
}

=== FILE: regex.dfy ===
/**
 The fragment of .NET regular expressions the packaging command uses: an
 escaped literal, a greedy run over one character class (`[0-9.]` or
 `[0-9/]`), and another escaped literal. For every pattern the command uses,
 the closing literal starts with a character outside the class, so the
 backtracking engine can never succeed with a shorter run than the longest
 one: the match at a position is the one `MatchLen` computes.
 */
module Regex {
  import opened Text

  datatype CharClass = DigitsDots | DigitsSlashes

  /** Membership in `[0-9.]` or `[0-9/]`. */
  predicate InClass(c: char, k: CharClass) {
    IsDigit(c) || (match k case DigitsDots => c == '.' case DigitsSlashes => c == '/')
  }

  predicate AllIn(s: string, k: CharClass) {
    forall i :: 0 <= i < |s| ==> InClass(s[i], k)
  }

  lemma DigitsInClass(s: string, k: CharClass)
    requires AllDigits(s)
    ensures AllIn(s, k)
  {
    forall i | 0 <= i < |s|
      ensures InClass(s[i], k)
    {
      assert IsDigit(s[i]);
    }
  }

  lemma AllInAppend(a: string, b: string, k: CharClass)
    requires AllIn(a, k) && AllIn(b, k)
    ensures AllIn(a + b, k)
  {
    forall i | 0 <= i < |a + b|
      ensures InClass((a + b)[i], k)
    {
      if i < |a| {
        assert (a + b)[i] == a[i];
      } else {
        assert (a + b)[i] == b[i - |a|];
      }
    }
  }

  /** The regular expression `open[class]*close`, literals unescaped. */
  datatype Pattern = Pattern(open: string, cls: CharClass, close: string)

  /** The text of a match of `p` whose run is `v`. */
  function Hit(p: Pattern, v: string): string {
    p.open + v + p.close
  }

  /** The run (the field value) inside a text of the shape `Hit(p, _)`. */
  function Inner(w: string, p: Pattern): string
    requires |p.open| + |p.close| <= |w|
  {
    w[|p.open|..|w| - |p.close|]
  }

  /** `w` is in the language of `p`. */
  predicate InLang(w: string, p: Pattern) {
    && |p.open| + |p.close| <= |w|
    && w == Hit(p, Inner(w, p))
    && AllIn(Inner(w, p), p.cls)
  }

  /** The length of the longest prefix of `s` made of class characters. */
  function RunLen(s: string, k: CharClass): (n: nat)
    ensures n <= |s|
    ensures AllIn(s[..n], k)
    ensures n < |s| ==> !InClass(s[n], k)
    decreases |s|
  {
    if |s| == 0 || !InClass(s[0], k) then 0 else 1 + RunLen(s[1..], k)
  }

  /** The length of the match of `p` that starts at the first character of `s`:
      the open literal, the longest run of class characters, the close literal. */
  function MatchLen(s: string, p: Pattern): (r: Option<nat>)
    ensures r.Some? ==> |p.open| + |p.close| <= r.value <= |s|
  {
    if !IsPrefix(p.open, s) then None
    else
      var j := |p.open| + RunLen(s[|p.open|..], p.cls);
      if IsPrefix(p.close, s[j..]) then Some(j + |p.close|) else None
  }

  /** What the matcher finds is in the pattern's language. */
  lemma MatchSound(s: string, p: Pattern)
    requires MatchLen(s, p).Some?
    ensures InLang(s[..MatchLen(s, p).value], p)
  {
    var n := RunLen(s[|p.open|..], p.cls);
    var j := |p.open| + n;
    var w := s[..j + |p.close|];
    assert w[..|p.open|] == p.open;
    assert w[|p.open|..j] == s[|p.open|..][..n];
    assert w[j..] == p.close;
    assert w == w[..|p.open|] + w[|p.open|..j] + w[j..];
  }

  /** A run stops at the first character outside the class, whatever follows it. */
  lemma {:induction false} RunLenStops(u: string, v: string, k: CharClass)
    requires |v| > 0 && !InClass(v[0], k)
    ensures RunLen(u + v, k) == RunLen(u, k)
    decreases |u|
  {
    if |u| == 0 {
      assert u + v == v;
    } else {
      assert (u + v)[0] == u[0];
      assert (u + v)[1..] == u[1..] + v;
      RunLenStops(u[1..], v, k);
    }
  }

  /** A pattern the matcher handles exactly: non-empty literals, a close literal
      that the run cannot swallow, and a match that is decided before the
      next occurrence of its own open literal (see `Guards`). */
  predicate Valid(p: Pattern) {
    && |p.open| > 0
    && |p.close| > 0
    && !InClass(p.close[0], p.cls)
    && Guards(p, p)
  }

  /** Whether `p` matches at a position is decided before the next place where
      the open literal of `q` starts: that literal's first character cannot
      continue `p`'s open literal, cannot join `p`'s run and is not part of
      `p`'s close literal. */
  predicate Guards(p: Pattern, q: Pattern) {
    && |q.open| > 0
    && (forall d :: 1 <= d < |p.open| ==> p.open[d] != q.open[0])
    && (forall i :: 0 <= i < |q.open| ==> !InClass(q.open[i], p.cls))
    && (forall i :: 0 <= i < |p.close| ==> p.close[i] != q.open[0])
  }

  /** No match of `p` can start anywhere inside a match of `q`: the two open
      literals clash, and `p`'s first character occurs nowhere else in `q`'s
      literals nor in its class. */
  predicate Separate(p: Pattern, q: Pattern) {
    && |p.open| > 0
    && Clash(q.open, p.open)
    && (forall d :: 1 <= d < |q.open| ==> q.open[d] != p.open[0])
    && !InClass(p.open[0], q.cls)
    && (forall i :: 0 <= i < |q.close| ==> q.close[i] != p.open[0])
  }

  /** A hit matches at its start, with exactly its own length, whatever follows it. */
  lemma MatchesOwnHit(p: Pattern, v: string, t: string)
    requires |p.close| > 0 && !InClass(p.close[0], p.cls)
    requires AllIn(v, p.cls)
    ensures MatchLen(Hit(p, v) + t, p) == Some(|Hit(p, v)|)
  {
    var s := Hit(p, v) + t;
    assert IsPrefix(p.open, s) by {
      assert s[..|p.open|] == p.open;
    }
    assert RunLen(s[|p.open|..], p.cls) == |v| by {
      assert s[|p.open|..] == v + (p.close + t);
      RunLenStops(v, p.close + t, p.cls);
      RunLenAll(v, p.cls);
    }
    assert IsPrefix(p.close, s[|p.open| + |v|..]) by {
      assert s[|p.open| + |v|..][..|p.close|] == p.close;
    }
  }

  /** A run over a string made of class characters takes all of it. */
  lemma {:induction false} RunLenAll(v: string, k: CharClass)
    requires AllIn(v, k)
    ensures RunLen(v, k) == |v|
    decreases |v|
  {
    if |v| > 0 {
      RunLenAll(v[1..], k);
    }
  }

  /** The matcher finds a match exactly where the text is in the pattern's language:
      together with the contract of `MatchLen` this is an if-and-only-if. */
  lemma MatchComplete(s: string, p: Pattern, m: nat)
    requires |p.close| > 0 && !InClass(p.close[0], p.cls)
    requires m <= |s| && InLang(s[..m], p)
    ensures MatchLen(s, p) == Some(m)
  {
    var v := Inner(s[..m], p);
    assert s == s[..m] + s[m..];
    assert s == Hit(p, v) + s[m..];
    MatchesOwnHit(p, v, s[m..]);
  }

  /** The position of the leftmost match of `p` in `s` at or after `from`, if any. */
  function FindFrom(s: string, p: Pattern, from: nat): (r: Option<nat>)
    requires |p.open| > 0 && from <= |s|
    ensures r.Some? ==> from <= r.value < |s| && MatchLen(s[r.value..], p).Some?
    decreases |s| - from
  {
    if from == |s| then None
    else if MatchLen(s[from..], p).Some? then Some(from)
    else FindFrom(s, p, from + 1)
  }

  /** `FindFrom` skips only positions where no match starts, and finds nothing
      only when no match starts anywhere from `from` on. */
  lemma {:induction false} FindFromLeast(s: string, p: Pattern, from: nat)
    requires |p.open| > 0 && from <= |s|
    ensures var r := FindFrom(s, p, from);
      && (r.Some? ==> forall j :: from <= j < r.value ==> MatchLen(s[j..], p).None?)
      && (r.None? ==> forall j :: from <= j <= |s| ==> MatchLen(s[j..], p).None?)
    decreases |s| - from
  {
    if from == |s| {
      NoMatchAtEnd(s, p);
    } else if MatchLen(s[from..], p).None? {
      FindFromLeast(s, p, from + 1);
      FindFromNext(s, p, from);
    }
  }

  /** One step of `FindFromLeast`: a position without a match is skipped. */
  lemma FindFromNext(s: string, p: Pattern, from: nat)
    requires |p.open| > 0 && from < |s| && MatchLen(s[from..], p).None?
    requires var r := FindFrom(s, p, from + 1);
      && (r.Some? ==> forall j :: from + 1 <= j < r.value ==> MatchLen(s[j..], p).None?)
      && (r.None? ==> forall j :: from + 1 <= j <= |s| ==> MatchLen(s[j..], p).None?)
    ensures var r := FindFrom(s, p, from);
      && (r.Some? ==> forall j :: from <= j < r.value ==> MatchLen(s[j..], p).None?)
      && (r.None? ==> forall j :: from <= j <= |s| ==> MatchLen(s[j..], p).None?)
  {
    var r := FindFrom(s, p, from + 1);
    assert FindFrom(s, p, from) == r;
    var hi := if r.Some? then r.value else |s| + 1;
    forall j | from <= j < hi
      ensures MatchLen(s[j..], p).None?
    {
      if j != from {
        assert from + 1 <= j < hi;
      }
    }
  }

  /** No match starts at the end of the text. */
  lemma NoMatchAtEnd(s: string, p: Pattern)
    requires |p.open| > 0
    ensures MatchLen(s[|s|..], p).None?
  {
  }

  /** The position of the leftmost match of `p` in `s`, if any: the index of the
      first element of `Regex.Matches(s, p)`. */
  function FindFirst(s: string, p: Pattern): (r: Option<nat>)
    requires |p.open| > 0
    ensures r.Some? ==> r.value < |s| && MatchLen(s[r.value..], p).Some?
    ensures r.Some? ==> forall j :: 0 <= j < r.value ==> MatchLen(s[j..], p).None?
    ensures r.None? ==> forall j :: 0 <= j <= |s| ==> MatchLen(s[j..], p).None?
  {
    FindFromLeast(s, p, 0);
    FindFrom(s, p, 0)
  }

  /** Matching `p` at the start of `z + q.open + _` succeeds or fails exactly as
      matching it at the start of `z` alone. */
  lemma MatchDecidedBy(p: Pattern, q: Pattern, z: string, a: string)
    requires |p.open| > 0 && Guards(p, q) && |z| > 0
    ensures MatchLen(z + q.open + a, p) == MatchLen(z, p)
  {
    var v := q.open + a;
    assert z + q.open + a == z + v;
    assert v[0] == q.open[0];
    PrefixDecidedBefore(p.open, z, v);
    if IsPrefix(p.open, z) {
      MatchDecidedAfterOpen(p, q, z, v);
    }
  }

  lemma MatchDecidedAfterOpen(p: Pattern, q: Pattern, z: string, v: string)
    requires |p.open| > 0 && Guards(p, q) && |v| > 0 && v[0] == q.open[0]
    requires IsPrefix(p.open, z)
    ensures MatchLen(z + v, p) == MatchLen(z, p)
  {
    var x := z + v;
    var n := |p.open|;
    assert IsPrefix(p.open, x) by {
      assert x[..n] == z[..n];
    }
    var j := n + RunLen(z[n..], p.cls);
    assert n + RunLen(x[n..], p.cls) == j by {
      assert x[n..] == z[n..] + v;
      RunLenStops(z[n..], v, p.cls);
    }
    assert IsPrefix(p.close, x[j..]) <==> IsPrefix(p.close, z[j..]) by {
      assert x[j..] == z[j..] + v;
      PrefixDecidedBefore(p.close, z[j..], v);
    }
  }

  /** Whether `p` matches at the start of `z + q.open + _` depends on `z` alone,
      never on what follows the open literal of `q`. */
  lemma MatchDecidedBefore(p: Pattern, q: Pattern, z: string, a: string, b: string)
    requires |p.open| > 0 && Guards(p, q) && |z| > 0
    ensures MatchLen(z + q.open + a, p) == MatchLen(z + q.open + b, p)
  {
    MatchDecidedBy(p, q, z, a);
    MatchDecidedBy(p, q, z, b);
  }

  /** No match of `p` can start inside `h`, whatever text follows it. */
  predicate Blocks(h: string, p: Pattern) {
    forall i :: 0 <= i < |h| ==> Clash(h[i..], p.open)
  }

  lemma BlockedNoMatch(h: string, t: string, p: Pattern, i: nat)
    requires Blocks(h, p) && i < |h|
    ensures MatchLen((h + t)[i..], p).None?
  {
    assert (h + t)[i..] == h[i..] + t;
    ClashNoPrefix(h[i..], t, p.open);
  }

  /** Two texts in which no match can start make a text in which none can. */
  lemma BlocksAppend(h: string, g: string, p: Pattern)
    requires Blocks(h, p) && Blocks(g, p)
    ensures Blocks(h + g, p)
  {
    forall i | 0 <= i < |h + g|
      ensures Clash((h + g)[i..], p.open)
    {
      if i < |h| {
        assert (h + g)[i..] == h[i..] + g;
        ClashExtend(h[i..], g, p.open);
      } else {
        assert (h + g)[i..] == g[i - |h|..];
      }
    }
  }

  /** A field of `q` between two texts in which no match of `p` can start
      keeps the whole free of such starts. */
  lemma BlocksAround(a: string, v: string, b: string, p: Pattern, q: Pattern)
    requires Separate(p, q) && AllIn(v, q.cls) && Blocks(a, p) && Blocks(b, p)
    ensures Blocks(a + Hit(q, v) + b, p)
  {
    HitBlocks(p, q, v);
    BlocksAppend(a, Hit(q, v), p);
    BlocksAppend(a + Hit(q, v), b, p);
  }

  /** A match of `q` never contains the start of a match of `p`. */
  lemma HitBlocks(p: Pattern, q: Pattern, v: string)
    requires Separate(p, q) && AllIn(v, q.cls)
    ensures Blocks(Hit(q, v), p)
  {
    var h := Hit(q, v);
    forall i | 0 <= i < |h|
      ensures Clash(h[i..], p.open)
    {
      if i == 0 {
        assert h == q.open + (v + q.close);
        ClashNoPrefix(q.open, v + q.close, p.open);
        if |h| <= |p.open| {
          assert !IsPrefix(q.open, p.open);
          assert p.open[..|h|][..|q.open|] == p.open[..|q.open|];
          assert h[..|q.open|] == q.open;
        }
      } else {
        if i < |q.open| {
          assert h[i] == q.open[i];
        } else if i < |q.open| + |v| {
          assert h[i] == v[i - |q.open|];
        } else {
          assert h[i] == q.close[i - |q.open| - |v|];
        }
        ClashAt(h[i..], p.open, 0);
      }
    }
  }
}

=== FILE: regex_replace.dfy ===
/**
 `Regex.Replace(input, pattern, replacement)` for the patterns of module
 `Regex`: the text is scanned left to right, every match is replaced by the
 replacement and scanning resumes right after it, and every character at
 which no match starts is copied unchanged.
 */
module RegexReplace {
  import opened Text
  import opened Regex

  function ReplaceAll(s: string, p: Pattern, repl: string): (r: string)
    requires |p.open| > 0
    ensures |repl| > 0 ==> (|r| == 0 <==> |s| == 0)
    decreases |s|
  {
    if |s| == 0 then ""
    else match MatchLen(s, p)
      case Some(m) => repl + ReplaceAll(s[m..], p, repl)
      case None => [s[0]] + ReplaceAll(s[1..], p, repl)
  }

  /** Text before the leftmost match is copied unchanged. */
  lemma ReplaceSkipsGap(s: string, p: Pattern, repl: string, k: nat)
    requires |p.open| > 0 && k <= |s|
    requires forall j :: 0 <= j < k ==> MatchLen(s[j..], p).None?
    ensures ReplaceAll(s, p, repl) == s[..k] + ReplaceAll(s[k..], p, repl)
  {
    ReplaceSkipsFrom(s, p, repl, 0, k);
    assert s[0..] == s;
    assert s[0..k] == s[..k];
  }

  lemma {:induction false} ReplaceSkipsFrom(s: string, p: Pattern, repl: string, i: nat, k: nat)
    requires |p.open| > 0 && i <= k <= |s|
    requires forall j :: i <= j < k ==> MatchLen(s[j..], p).None?
    ensures ReplaceAll(s[i..], p, repl) == s[i..k] + ReplaceAll(s[k..], p, repl)
    decreases k - i
  {
    if i == k {
      assert s[i..k] == "";
    } else {
      var a, b := ReplaceAll(s[i + 1..], p, repl), ReplaceAll(s[k..], p, repl);
      assert ReplaceAll(s[i..], p, repl) == [s[i]] + a by {
        ReplaceCopies(s[i..], p, repl);
        assert s[i..][1..] == s[i + 1..];
      }
      assert a == s[i + 1..k] + b by {
        ReplaceSkipsFrom(s, p, repl, i + 1, k);
      }
      SliceCons(s, i, k);
      SeqAssoc([s[i]], s[i + 1..k], b);
    }
  }

  lemma SeqAssoc(a: string, b: string, c: string)
    ensures a + (b + c) == (a + b) + c
  {
  }

  /** A match at the start is replaced and scanning resumes after it. */
  lemma ReplaceAtMatch(s: string, p: Pattern, repl: string, m: nat)
    requires |p.open| > 0 && |s| > 0 && MatchLen(s, p) == Some(m)
    ensures ReplaceAll(s, p, repl) == repl + ReplaceAll(s[m..], p, repl)
  {
  }

  /** A character at which no match starts is copied. */
  lemma ReplaceCopies(s: string, p: Pattern, repl: string)
    requires |p.open| > 0 && |s| > 0 && MatchLen(s, p).None?
    ensures ReplaceAll(s, p, repl) == [s[0]] + ReplaceAll(s[1..], p, repl)
  {
  }

  /** A text in which the pattern matches nowhere is returned unchanged. */
  lemma ReplaceNoMatch(s: string, p: Pattern, repl: string)
    requires |p.open| > 0
    requires forall j :: 0 <= j < |s| ==> MatchLen(s[j..], p).None?
    ensures ReplaceAll(s, p, repl) == s
  {
    ReplaceSkipsGap(s, p, repl, |s|);
    assert s[|s|..] == "";
    assert s[..|s|] == s;
  }

  /** The leftmost match is replaced, the text before it is kept, and scanning
      resumes right after it. */
  lemma ReplaceAtFirstMatch(s: string, p: Pattern, repl: string, i: nat, m: nat)
    requires |p.open| > 0
    requires FindFirst(s, p) == Some(i) && MatchLen(s[i..], p) == Some(m)
    ensures i + m <= |s|
    ensures ReplaceAll(s, p, repl) == s[..i] + repl + ReplaceAll(s[i + m..], p, repl)
  {
    ReplaceSkipsGap(s, p, repl, i);
    SliceOfSlice(s, i, m);
    ReplaceAtMatch(s[i..], p, repl, m);
  }

  /** A prefix in which no match can start is copied unchanged. */
  lemma ReplaceAfterBlock(h: string, t: string, p: Pattern, repl: string)
    requires |p.open| > 0 && Blocks(h, p)
    ensures ReplaceAll(h + t, p, repl) == h + ReplaceAll(t, p, repl)
  {
    forall j | 0 <= j < |h|
      ensures MatchLen((h + t)[j..], p).None?
    {
      BlockedNoMatch(h, t, p, j);
    }
    ReplaceSkipsGap(h + t, p, repl, |h|);
    assert (h + t)[..|h|] == h;
    assert (h + t)[|h|..] == t;
  }

  /** A field between two texts in which no match can start is the only thing
      the pass replaces. */
  lemma ReplaceOneField(a: string, x: string, b: string, p: Pattern, repl: string)
    requires Valid(p) && AllIn(x, p.cls) && Blocks(a, p) && Blocks(b, p)
    ensures ReplaceAll(a + Hit(p, x) + b, p, repl) == a + repl + b
  {
    assert a + Hit(p, x) + b == a + (Hit(p, x) + b);
    ReplaceAfterBlock(a, Hit(p, x) + b, p, repl);
    ReplaceOwnHit(p, x, b, repl);
    ReplaceAfterBlock(b, "", p, repl);
    assert b + "" == b;
  }

  /** A pass of `q` leaves a text alone when no match of `q` can start in it:
      here a field of another pattern `p` between two such texts. */
  lemma ReplaceMissesField(a: string, x: string, b: string, p: Pattern, q: Pattern, repl: string)
    requires Separate(q, p) && AllIn(x, p.cls) && Blocks(a, q) && Blocks(b, q)
    ensures ReplaceAll(a + Hit(p, x) + b, q, repl) == a + Hit(p, x) + b
  {
    BlocksAround(a, x, b, q, p);
    ReplaceAfterBlock(a + Hit(p, x) + b, "", q, repl);
    assert a + Hit(p, x) + b + "" == a + Hit(p, x) + b;
  }

  /** A match at the start is replaced as a whole, whatever follows it. */
  lemma ReplaceOwnHit(p: Pattern, v: string, t: string, repl: string)
    requires Valid(p) && AllIn(v, p.cls)
    ensures ReplaceAll(Hit(p, v) + t, p, repl) == repl + ReplaceAll(t, p, repl)
  {
    MatchesOwnHit(p, v, t);
    assert (Hit(p, v) + t)[|Hit(p, v)|..] == t;
  }

  /** A replacement pass of `q` creates no match of `p` at a position right
      after a character where `p` did not match before. */
  lemma NoMatchSurvives(c: char, u: string, p: Pattern, q: Pattern, vq: string)
    requires |p.open| > 0 && Valid(q) && Guards(p, q) && AllIn(vq, q.cls)
    requires MatchLen([c] + u, p).None?
    ensures MatchLen([c] + ReplaceAll(u, q, Hit(q, vq)), p).None?
  {
    match FindFirst(u, q)
    case None =>
      ReplaceNoMatch(u, q, Hit(q, vq));
    case Some(k) =>
      var m := MatchLen(u[k..], q).value;
      ReplaceAtFirstMatch(u, q, Hit(q, vq), k, m);
      NoMatchSurvivesAt(c, u, p, q, vq, k, m);
  }

  lemma NoMatchSurvivesAt(c: char, u: string, p: Pattern, q: Pattern, vq: string, k: nat, m: nat)
    requires |p.open| > 0 && Valid(q) && Guards(p, q) && AllIn(vq, q.cls)
    requires MatchLen([c] + u, p).None?
    requires k + m <= |u| && MatchLen(u[k..], q) == Some(m)
    requires ReplaceAll(u, q, Hit(q, vq)) == u[..k] + Hit(q, vq) + ReplaceAll(u[k + m..], q, Hit(q, vq))
    ensures MatchLen([c] + ReplaceAll(u, q, Hit(q, vq)), p).None?
  {
    var h := Hit(q, vq);
    var rest := u[k + m..];
    var r := ReplaceAll(rest, q, h);
    var z := [c] + u[..k];
    var v := FieldAt(c, u, q, k, m);
    HitRegroup(c, u[..k], q, vq, r);
    MatchDecidedBefore(p, q, z, v + q.close + rest, vq + q.close + r);
  }

  /** The field that `q` matches at `u[k..]`, as seen from one character earlier. */
  lemma FieldAt(c: char, u: string, q: Pattern, k: nat, m: nat) returns (v: string)
    requires k + m <= |u| && MatchLen(u[k..], q) == Some(m)
    ensures [c] + u == ([c] + u[..k]) + q.open + (v + q.close + u[k + m..])
  {
    MatchSound(u[k..], q);
    assert u[k..][..m] == u[k..k + m];
    v := Inner(u[k..k + m], q);
    Regroup(c, u, k, m, q.open, v, q.close);
  }

  lemma HitRegroup(c: char, pre: string, q: Pattern, vq: string, r: string)
    ensures [c] + (pre + Hit(q, vq) + r) == ([c] + pre) + q.open + (vq + q.close + r)
  {
  }

  /** Regrouping `[c] + u` around a field `open + v + close` found at `u[k..k + m]`. */
  lemma Regroup(c: char, u: string, k: nat, m: nat, open: string, v: string, close: string)
    requires k + m <= |u| && u[k..k + m] == open + v + close
    ensures [c] + u == ([c] + u[..k]) + open + (v + close + u[k + m..])
  {
    assert u == u[..k] + u[k..k + m] + u[k + m..];
  }

  /** Every match the pass for `p` finds in `s` already carries the value `v`,
      so the pass leaves `s` as it is. */
  predicate Settled(s: string, p: Pattern, v: string)
    requires |p.open| > 0
  {
    ReplaceAll(s, p, Hit(p, v)) == s
  }

  /** In a settled text the leftmost field holds the pass's value. */
  lemma SettledFirstField(s: string, p: Pattern, v: string, i: nat)
    requires Valid(p) && AllIn(v, p.cls)
    requires Settled(s, p, v) && FindFirst(s, p) == Some(i)
    ensures i + |Hit(p, v)| <= |s|
    ensures s[i..i + |Hit(p, v)|] == Hit(p, v)
    ensures MatchLen(s[i..], p) == Some(|Hit(p, v)|)
  {
    var h := Hit(p, v);
    var m := MatchLen(s[i..], p).value;
    ReplaceAtFirstMatch(s, p, h, i, m);
    var tail := ReplaceAll(s[i + m..], p, h);
    Split3(s, s[..i], h, tail);
    MatchesOwnHit(p, v, tail);
  }

  /** No match of a valid pattern starts strictly inside one of its own fields. */
  lemma NoStartInsideHit(p: Pattern, v: string, t: string, j: nat)
    requires Valid(p) && AllIn(v, p.cls)
    requires 0 < j < |Hit(p, v)|
    ensures MatchLen((Hit(p, v) + t)[j..], p).None?
  {
    var h := Hit(p, v);
    var s := (h + t)[j..];
    assert s[0] == h[j];
    if j < |p.open| {
      assert h[j] == p.open[j];
    } else if j < |p.open| + |v| {
      assert h[j] == v[j - |p.open|];
    } else {
      assert h[j] == p.close[j - |p.open| - |v|];
    }
    assert !IsPrefix(p.open, s) by {
      if |p.open| <= |s| {
        assert s[..|p.open|][0] == s[0];
      }
    }
  }

  /** A settled tail `t[i..]` that starts with a match starts with the new
      field, and the tail `t[k..]` after that field is settled too. */
  lemma SettledAtMatch(t: string, i: nat, k: nat, p: Pattern, v: string)
    requires Valid(p) && AllIn(v, p.cls)
    requires i <= |t| && Settled(t[i..], p, v) && MatchLen(t[i..], p).Some?
    requires k == i + |Hit(p, v)|
    ensures MatchLen(t[i..], p) == Some(|Hit(p, v)|)
    ensures k <= |t| && t[i..] == Hit(p, v) + t[k..]
    ensures Settled(t[k..], p, v)
  {
    var h := Hit(p, v);
    var u := t[i..];
    var m := MatchLen(u, p).value;
    var rest := ReplaceAll(u[m..], p, h);
    assert u == h + rest;
    MatchesOwnHit(p, v, rest);
    assert u[m..] == rest;
    assert t[k..] == u[m..];
  }

  /** A settled tail `t[i..]` that does not start with a match stays settled
      one character further on. */
  lemma SettledAtNoMatch(t: string, i: nat, p: Pattern, v: string)
    requires |p.open| > 0 && i < |t| && Settled(t[i..], p, v) && MatchLen(t[i..], p).None?
    ensures Settled(t[i + 1..], p, v)
  {
    var u := t[i..];
    var rest := ReplaceAll(u[1..], p, Hit(p, v));
    assert u == [u[0]] + rest;
    assert u[1..] == rest;
    assert t[i + 1..] == u[1..];
  }

  /** In a settled text every match, not only the leftmost, is the field
      carrying the pass's value. */
  lemma SettledEveryField(t: string, p: Pattern, v: string, j: nat)
    requires Valid(p) && AllIn(v, p.cls) && Settled(t, p, v)
    requires j < |t| && MatchLen(t[j..], p).Some?
    ensures MatchLen(t[j..], p) == Some(|Hit(p, v)|)
    ensures j + |Hit(p, v)| <= |t| && t[j..j + |Hit(p, v)|] == Hit(p, v)
  {
    assert t[0..] == t;
    SettledFieldFrom(t, 0, p, v, j);
  }

  /** `SettledEveryField` for a match at or after position `i` of a text whose
      tail `t[i..]` is settled. */
  lemma {:induction false} SettledFieldFrom(t: string, i: nat, p: Pattern, v: string, j: nat)
    requires Valid(p) && AllIn(v, p.cls)
    requires i <= j < |t| && Settled(t[i..], p, v) && MatchLen(t[j..], p).Some?
    ensures MatchLen(t[j..], p) == Some(|Hit(p, v)|)
    ensures j + |Hit(p, v)| <= |t| && t[j..j + |Hit(p, v)|] == Hit(p, v)
    decreases |t| - i, 1
  {
    if MatchLen(t[i..], p).Some? {
      SettledFieldAtHit(t, i, p, v, j);
    } else {
      assert j != i;
      SettledAtNoMatch(t, i, p, v);
      SettledFieldFrom(t, i + 1, p, v, j);
    }
  }

  /** `SettledFieldFrom` when the settled tail starts with a field. */
  lemma {:induction false} SettledFieldAtHit(t: string, i: nat, p: Pattern, v: string, j: nat)
    requires Valid(p) && AllIn(v, p.cls)
    requires i <= j < |t| && Settled(t[i..], p, v) && MatchLen(t[j..], p).Some?
    requires MatchLen(t[i..], p).Some?
    ensures MatchLen(t[j..], p) == Some(|Hit(p, v)|)
    ensures j + |Hit(p, v)| <= |t| && t[j..j + |Hit(p, v)|] == Hit(p, v)
    decreases |t| - i, 0
  {
    var k := i + |Hit(p, v)|;
    SettledAtMatch(t, i, k, p, v);
    if j < k {
      FieldStartsAtHit(t, i, k, p, v, j);
    } else {
      SettledFieldFrom(t, k, p, v, j);
    }
  }

  /** A match that starts within a field `t[i..i + |Hit(p, v)|]` starts where
      the field does. */
  lemma FieldStartsAtHit(t: string, i: nat, k: nat, p: Pattern, v: string, j: nat)
    requires Valid(p) && AllIn(v, p.cls)
    requires k == i + |Hit(p, v)| && i <= j < k <= |t| && t[i..] == Hit(p, v) + t[k..]
    requires MatchLen(t[j..], p).Some?
    ensures j == i && t[j..j + |Hit(p, v)|] == Hit(p, v)
  {
    var h := Hit(p, v);
    if j > i {
      NoStartInsideHit(p, v, t[k..], j - i);
      assert false;
    }
    assert t[j..j + |h|] == t[i..][..|h|];
  }

  /** The pieces of a concatenation of three strings. */
  lemma Split3(s: string, a: string, b: string, c: string)
    requires s == a + b + c
    ensures s[|a|..] == b + c && s[|a|..|a| + |b|] == b
  {
  }

  /** Replacing with a value the pattern matches is idempotent. */
  lemma {:induction false} ReplaceIdempotent(s: string, p: Pattern, v: string)
    requires Valid(p) && AllIn(v, p.cls)
    ensures Settled(ReplaceAll(s, p, Hit(p, v)), p, v)
    decreases |s|
  {
    var h := Hit(p, v);
    if |s| > 0 {
      match MatchLen(s, p)
      case Some(m) =>
        ReplaceIdempotent(s[m..], p, v);
        ReplaceOwnHit(p, v, ReplaceAll(s[m..], p, h), h);
      case None =>
        var u := s[1..];
        assert s == [s[0]] + u;
        ReplaceIdempotent(u, p, v);
        NoMatchSurvives(s[0], u, p, p, v);
        var r := ReplaceAll(u, p, h);
        assert ([s[0]] + r)[1..] == r;
    }
  }

  /** A pass of `q` keeps a text settled for `p`: it neither creates a match of
      `p` nor changes one. */
  lemma {:induction false} ReplaceKeepsSettled(s: string, p: Pattern, vp: string, q: Pattern, vq: string)
    requires Valid(p) && Valid(q) && AllIn(vp, p.cls) && AllIn(vq, q.cls)
    requires Guards(p, q) && Separate(p, q) && Separate(q, p)
    requires Settled(s, p, vp)
    ensures Settled(ReplaceAll(s, q, Hit(q, vq)), p, vp)
    decreases |s|, 1
  {
    var hp := Hit(p, vp);
    var hq := Hit(q, vq);
    if |s| > 0 {
      if MatchLen(s, p).Some? {
        KeepsSettledAtHit(s, p, vp, q, vq);
      } else if MatchLen(s, q).Some? {
        KeepsSettledAtOther(s, p, vp, q, vq);
      } else {
        var u := s[1..];
        assert s == [s[0]] + u;
        assert ([s[0]] + ReplaceAll(u, p, hp))[1..] == ReplaceAll(u, p, hp);
        ReplaceKeepsSettled(u, p, vp, q, vq);
        NoMatchSurvives(s[0], u, p, q, vq);
        var r := ReplaceAll(u, q, hq);
        assert ([s[0]] + r)[1..] == r;
      }
    }
  }

  /** `ReplaceKeepsSettled` when `s` starts with a field of `p`. */
  lemma {:induction false} KeepsSettledAtHit(s: string, p: Pattern, vp: string, q: Pattern, vq: string)
    requires Valid(p) && Valid(q) && AllIn(vp, p.cls) && AllIn(vq, q.cls)
    requires Guards(p, q) && Separate(p, q) && Separate(q, p)
    requires Settled(s, p, vp) && MatchLen(s, p).Some?
    ensures Settled(ReplaceAll(s, q, Hit(q, vq)), p, vp)
    decreases |s|, 0
  {
    var hp := Hit(p, vp);
    var hq := Hit(q, vq);
    var m := MatchLen(s, p).value;
    var rest := s[m..];
    // settled: the field already reads hp, and the rest is settled too
    assert ReplaceAll(s, p, hp) == hp + ReplaceAll(rest, p, hp);
    MatchesOwnHit(p, vp, ReplaceAll(rest, p, hp));
    assert m == |hp|;
    assert s == hp + rest;
    assert Settled(rest, p, vp);
    HitBlocks(q, p, vp);
    ReplaceAfterBlock(hp, rest, q, hq);
    ReplaceKeepsSettled(rest, p, vp, q, vq);
    ReplaceOwnHit(p, vp, ReplaceAll(rest, q, hq), hp);
  }

  /** `ReplaceKeepsSettled` when `s` starts with a field of `q`. */
  lemma {:induction false} KeepsSettledAtOther(s: string, p: Pattern, vp: string, q: Pattern, vq: string)
    requires Valid(p) && Valid(q) && AllIn(vp, p.cls) && AllIn(vq, q.cls)
    requires Guards(p, q) && Separate(p, q) && Separate(q, p)
    requires Settled(s, p, vp) && MatchLen(s, q).Some?
    ensures Settled(ReplaceAll(s, q, Hit(q, vq)), p, vp)
    decreases |s|, 0
  {
    var hp := Hit(p, vp);
    var hq := Hit(q, vq);
    var m := MatchLen(s, q).value;
    var w := s[..m];
    var rest := s[m..];
    MatchSound(s, q);
    assert InLang(w, q);
    assert s == Hit(q, Inner(w, q)) + rest;
    HitBlocks(p, q, Inner(w, q));
    ReplaceAfterBlock(Hit(q, Inner(w, q)), rest, p, hp);
    assert Settled(rest, p, vp);
    ReplaceKeepsSettled(rest, p, vp, q, vq);
    assert ReplaceAll(s, q, hq) == hq + ReplaceAll(rest, q, hq);
    HitBlocks(p, q, vq);
    ReplaceAfterBlock(hq, ReplaceAll(rest, q, hq), p, hp);
  }
}

=== FILE: script_layout.dfy ===
/**
 A `version.iss` script seen as a sequence of pieces: plain text in which no
 field can start, and fields of the three kinds, in any number and any order.
 `SetVersionTool` gives every field of each kind its new value and keeps every
 piece of plain text as it was.
 */
module ScriptLayout {
  import opened Text
  import opened Regex
  import opened RegexReplace
  import opened ScriptRewriter

  datatype Kind = VersionKind | BuildKind | OutputKind

  /** A piece of a script: plain text, or a field of one kind with its value. */
  datatype Piece = Gap(text: string) | Field(kind: Kind, value: string)

  function PatternOf(k: Kind): Pattern {
    match k
    case VersionKind => VersionField
    case BuildKind => BuildField
    case OutputKind => OutputField
  }

  function Show(x: Piece): string {
    match x
    case Gap(t) => t
    case Field(k, v) => Hit(PatternOf(k), v)
  }

  /** The script the pieces spell, in order. */
  function Render(ps: seq<Piece>): string
    decreases |ps|
  {
    if |ps| == 0 then "" else Show(ps[0]) + Render(ps[1..])
  }

  /** Plain text is plain, and a field's value is made of its class's characters. */
  predicate Proper(x: Piece) {
    match x
    case Gap(t) => Plain(t)
    case Field(k, v) => AllIn(v, PatternOf(k).cls)
  }

  predicate AllProper(ps: seq<Piece>) {
    forall i :: 0 <= i < |ps| ==> Proper(ps[i])
  }

  /** The value a field of kind `k` gets from `SetVersionTool(_, version, now)`. */
  function NewValue(k: Kind, version: string, now: Date): string
    requires '.' in version
  {
    match k
    case VersionKind => version
    case BuildKind => BuildStamp(now)
    case OutputKind => OutputVersion(version).value
  }

  /** The pieces of the rewritten script: every field carries its new value,
      and every piece keeps its place, its kind and, when plain, its text. */
  function Renewed(ps: seq<Piece>, version: string, now: Date): (r: seq<Piece>)
    requires '.' in version
    ensures |r| == |ps|
    ensures forall i :: 0 <= i < |ps| ==> (r[i].Gap? <==> ps[i].Gap?)
    ensures forall i :: 0 <= i < |ps| && ps[i].Gap? ==> r[i] == ps[i]
    ensures forall i :: 0 <= i < |ps| && ps[i].Field? ==>
      r[i] == Field(ps[i].kind, NewValue(ps[i].kind, version, now))
    decreases |ps|
  {
    if |ps| == 0 then []
    else
      [Renew(ps[0], version, now)] + Renewed(ps[1..], version, now)
  }

  function Renew(x: Piece, version: string, now: Date): Piece
    requires '.' in version
  {
    if x.Gap? then x else Field(x.kind, NewValue(x.kind, version, now))
  }

  /** The pieces after one pass: every field of kind `k` carries `v`. */
  function Stamp(ps: seq<Piece>, k: Kind, v: string): seq<Piece>
    decreases |ps|
  {
    if |ps| == 0 then []
    else
      var x := ps[0];
      [if x.Field? && x.kind == k then Field(k, v) else x] + Stamp(ps[1..], k, v)
  }

  // ---------------------------------------------------------------------------
  // One pass over the pieces

  lemma KindValid(k: Kind)
    ensures Valid(PatternOf(k))
  {
    match k
    case VersionKind => VersionFieldValid();
    case BuildKind => BuildFieldValid();
    case OutputKind => OutputFieldValid();
  }

  lemma KindsSeparate(k: Kind, j: Kind)
    requires k != j
    ensures Separate(PatternOf(k), PatternOf(j))
  {
    VersionBuildApart();
    VersionOutputApart();
    BuildOutputApart();
  }

  /** One pass of a field's pattern replaces exactly the fields of that kind:
      plain text and fields of the other kinds are copied. */
  lemma {:induction false} PassOverPieces(ps: seq<Piece>, k: Kind, v: string)
    requires AllProper(ps) && AllIn(v, PatternOf(k).cls)
    ensures ReplaceAll(Render(ps), PatternOf(k), Hit(PatternOf(k), v)) == Render(Stamp(ps, k, v))
    decreases |ps|
  {
    var p := PatternOf(k);
    var repl := Hit(p, v);
    KindValid(k);
    if |ps| == 0 {
      ReplaceNoMatch("", p, repl);
    } else {
      var rest := Render(ps[1..]);
      PassOverPieces(ps[1..], k, v);
      assert Render(ps) == Show(ps[0]) + rest;
      match ps[0]
      case Gap(t) =>
        assert Proper(ps[0]);
        ReplaceAfterBlock(t, rest, p, repl);
      case Field(j, x) =>
        assert Proper(ps[0]);
        if j == k {
          ReplaceOwnHit(p, x, rest, repl);
        } else {
          KindsSeparate(k, j);
          HitBlocks(p, PatternOf(j), x);
          ReplaceAfterBlock(Hit(PatternOf(j), x), rest, p, repl);
        }
    }
  }

  /** A pass keeps the pieces proper when the new value is in the field's class. */
  lemma {:induction false} StampProper(ps: seq<Piece>, k: Kind, v: string)
    requires AllProper(ps) && AllIn(v, PatternOf(k).cls)
    ensures AllProper(Stamp(ps, k, v))
    decreases |ps|
  {
    if |ps| > 0 {
      StampProper(ps[1..], k, v);
      var s := Stamp(ps, k, v);
      forall i | 0 <= i < |s|
        ensures Proper(s[i])
      {
        if i > 0 {
          assert s[i] == Stamp(ps[1..], k, v)[i - 1];
        } else {
          assert Proper(ps[0]);
        }
      }
    }
  }

  /** The three passes, in their order, give every field its new value. */
  lemma {:induction false} ThreeStamps(ps: seq<Piece>, version: string, now: Date)
    requires '.' in version
    ensures Stamp(Stamp(Stamp(ps, VersionKind, version), BuildKind, BuildStamp(now)),
                  OutputKind, OutputVersion(version).value)
      == Renewed(ps, version, now)
    decreases |ps|
  {
    if |ps| > 0 {
      ThreeStamps(ps[1..], version, now);
    }
  }

  // ---------------------------------------------------------------------------
  // The whole rewrite

  /** Any script made of plain text and fields of the three kinds, in any
      number and order, comes back with every field holding its new value and
      every piece of plain text unchanged. */
  lemma SetVersionLayout(ps: seq<Piece>, version: string, now: Date)
    requires AllProper(ps)
    requires AllIn(version, DigitsDots) && '.' in version
    ensures SetVersionTool(Render(ps), version, now) == Some(Render(Renewed(ps, version, now)))
  {
    var output := OutputVersion(version).value;
    var stamp := BuildStamp(now);
    OutputVersionDigits(version);
    DigitsInClass(output, DigitsDots);
    ReplacementsAreFields(version, output, now);
    var p1 := Stamp(ps, VersionKind, version);
    var p2 := Stamp(p1, BuildKind, stamp);
    PassOverPieces(ps, VersionKind, version);
    StampProper(ps, VersionKind, version);
    PassOverPieces(p1, BuildKind, stamp);
    StampProper(p1, BuildKind, stamp);
    PassOverPieces(p2, OutputKind, output);
    ThreeStamps(ps, version, now);
  }

  /** A script with an output field before its version field: the case the
      order of `version.iss` does not show. */
  lemma SetVersionOutputFirst(a: string, z: string, b: string, x: string, c: string, version: string, now: Date)
    requires Plain(a) && Plain(b) && Plain(c) && AllIn(z, DigitsDots) && AllIn(x, DigitsDots)
    requires AllIn(version, DigitsDots) && '.' in version
    ensures var output := OutputVersion(version).value;
      SetVersionTool(a + Hit(OutputField, z) + b + Hit(VersionField, x) + c, version, now)
        == Some(a + Hit(OutputField, output) + b + Hit(VersionField, version) + c)
  {
    var ps := Five(Gap(a), Field(OutputKind, z), Gap(b), Field(VersionKind, x), Gap(c));
    FiveProper(Gap(a), Field(OutputKind, z), Gap(b), Field(VersionKind, x), Gap(c));
    SetVersionLayout(ps, version, now);
    RenewedFive(Gap(a), Field(OutputKind, z), Gap(b), Field(VersionKind, x), Gap(c), version, now);
    RenderFive(Gap(a), Field(OutputKind, z), Gap(b), Field(VersionKind, x), Gap(c));
    RenderFive(Gap(a), Field(OutputKind, OutputVersion(version).value), Gap(b), Field(VersionKind, version), Gap(c));
  }

  function Five(x0: Piece, x1: Piece, x2: Piece, x3: Piece, x4: Piece): seq<Piece> {
    [x0] + ([x1] + ([x2] + ([x3] + [x4])))
  }

  lemma RenderCons(x: Piece, ps: seq<Piece>)
    ensures Render([x] + ps) == Show(x) + Render(ps)
  {
    assert ([x] + ps)[1..] == ps;
  }

  lemma RenderFive(x0: Piece, x1: Piece, x2: Piece, x3: Piece, x4: Piece)
    ensures Render(Five(x0, x1, x2, x3, x4)) == Show(x0) + Show(x1) + Show(x2) + Show(x3) + Show(x4)
  {
    RenderCons(x4, []);
    RenderCons(x3, [x4]);
    RenderCons(x2, [x3] + [x4]);
    RenderCons(x1, [x2] + ([x3] + [x4]));
    RenderCons(x0, [x1] + ([x2] + ([x3] + [x4])));
  }

  lemma RenewedFive(x0: Piece, x1: Piece, x2: Piece, x3: Piece, x4: Piece, version: string, now: Date)
    requires '.' in version
    ensures Renewed(Five(x0, x1, x2, x3, x4), version, now)
      == Five(Renew(x0, version, now), Renew(x1, version, now), Renew(x2, version, now),
              Renew(x3, version, now), Renew(x4, version, now))
  {
  }

  lemma FiveProper(x0: Piece, x1: Piece, x2: Piece, x3: Piece, x4: Piece)
    requires Proper(x0) && Proper(x1) && Proper(x2) && Proper(x3) && Proper(x4)
    ensures AllProper(Five(x0, x1, x2, x3, x4))
  {
  }
}

=== FILE: script_rewriter.dfy ===
/**
 `SetVersionTool`: the three replace passes that stamp a new version, build
 date and output version into the Inno Setup script `version.iss`, and the
 two values it derives — the build stamp from the clock and the compact
 output version from the version.
 */
module ScriptRewriter {
  import opened Text
  import opened Regex
  import opened RegexReplace

  /** `MyAppVersion "[0-9.]*"` */
  const VersionField := Pattern("MyAppVersion \"", DigitsDots, "\"")
  /** `MyAppBuildNo "\(Build [0-9/]*\)"` */
  const BuildField := Pattern("MyAppBuildNo \"(Build ", DigitsSlashes, ")\"")
  /** `OutputVersion "[0-9.]*"` */
  const OutputField := Pattern("OutputVersion \"", DigitsDots, "\"")

  /** The moment `DateTime.Now` is read, as the three components the stamp uses. */
  datatype Date = Date(month: nat, day: nat, year: nat)

  // ---------------------------------------------------------------------------
  // The build stamp

  /** `MM/DD/Y`: month and day zero-padded to two digits, the year to at least two. */
  function BuildStamp(now: Date): (r: string)
    ensures AllIn(r, DigitsSlashes)
    ensures |Split(r, '/')| == 3
  {
    var pieces := [Format00(now.month), Format00(now.day), Format00(now.year)];
    StampPieces(pieces);
    Join(pieces, '/')
  }

  lemma StampPieces(pieces: seq<string>)
    requires |pieces| == 3
    requires forall i :: 0 <= i < 3 ==> AllDigits(pieces[i])
    ensures Join(pieces, '/') == pieces[0] + "/" + pieces[1] + "/" + pieces[2]
    ensures AllIn(Join(pieces, '/'), DigitsSlashes)
    ensures Split(Join(pieces, '/'), '/') == pieces
  {
    StampJoin(pieces);
    StampInClass(pieces);
    forall i | 0 <= i < 3
      ensures '/' !in pieces[i]
    {
      DigitsInClass(pieces[i], DigitsDots);
      NoSlashInDigits(pieces[i]);
    }
    SplitJoin(pieces, '/');
  }

  lemma StampJoin(pieces: seq<string>)
    requires |pieces| == 3
    ensures Join(pieces, '/') == pieces[0] + "/" + pieces[1] + "/" + pieces[2]
  {
    assert pieces[1..][1..] == [pieces[2]];
    assert Join(pieces[1..], '/') == pieces[1] + "/" + pieces[2];
  }

  lemma StampInClass(pieces: seq<string>)
    requires |pieces| == 3
    requires forall i :: 0 <= i < 3 ==> AllDigits(pieces[i])
    ensures AllIn(pieces[0] + "/" + pieces[1] + "/" + pieces[2], DigitsSlashes)
  {
    DigitsInClass(pieces[0], DigitsSlashes);
    DigitsInClass(pieces[1], DigitsSlashes);
    DigitsInClass(pieces[2], DigitsSlashes);
    AllInAppend(pieces[0], "/", DigitsSlashes);
    AllInAppend(pieces[0] + "/", pieces[1], DigitsSlashes);
    AllInAppend(pieces[0] + "/" + pieces[1], "/", DigitsSlashes);
    AllInAppend(pieces[0] + "/" + pieces[1] + "/", pieces[2], DigitsSlashes);
  }

  lemma NoSlashInDigits(s: string)
    requires AllIn(s, DigitsDots)
    ensures '/' !in s
  {
    forall k | 0 <= k < |s|
      ensures s[k] != '/'
    {
      assert InClass(s[k], DigitsDots);
    }
  }

  /** Reading the stamp back, field by field, gives the date it was made from. */
  lemma BuildStampRoundTrip(now: Date)
    ensures var f := Split(BuildStamp(now), '/');
      && AllDigits(f[0]) && AllDigits(f[1]) && AllDigits(f[2])
      && DecimalValue(f[0]) == now.month
      && DecimalValue(f[1]) == now.day
      && DecimalValue(f[2]) == now.year
  {
    var pieces := [Format00(now.month), Format00(now.day), Format00(now.year)];
    StampPieces(pieces);
    Format00Value(now.month);
    Format00Value(now.day);
    Format00Value(now.year);
  }

  /** For a calendar date the stamp is `MM/DD/YYYY`, ten characters, with the
      slashes in the third and sixth places. */
  lemma BuildStampShape(now: Date)
    requires 1 <= now.month <= 12 && 1 <= now.day <= 31 && 1000 <= now.year <= 9999
    ensures |BuildStamp(now)| == 10
    ensures BuildStamp(now)[2] == '/' && BuildStamp(now)[5] == '/'
  {
    var pieces := [Format00(now.month), Format00(now.day), Format00(now.year)];
    StampPieces(pieces);
    assert |Digits(now.year)| == 4 by {
      assert |Digits(now.year / 10)| == 3 by {
        assert |Digits(now.year / 100)| == 2;
      }
    }
  }

  /** The `(Build …)` text of line 185. */
  function BuildNumber(now: Date): string {
    "(Build " + BuildStamp(now) + ")"
  }

  // ---------------------------------------------------------------------------
  // The output version

  /** `version.Remove(version.LastIndexOf('.')).Replace(".", "")`: everything
      before the last dot, with the dots deleted; a version without a dot makes
      `Remove(-1)` throw, modelled as `None`. */
  function OutputVersion(version: string): (r: Option<string>)
    ensures r.None? <==> '.' !in version
    ensures r.Some? ==> '.' !in r.value && |r.value| < |version|
  {
    match Remove(version, LastIndexOf(version, '.'))
    case None => None
    case Some(head) => Some(Without(head, '.'))
  }

  /** The output version of `a.b.….z` is `ab…`: the last segment dropped, the
      others run together. */
  lemma OutputVersionDropsRevision(segments: seq<string>)
    requires |segments| >= 2
    requires forall i :: 0 <= i < |segments| ==> '.' !in segments[i]
    ensures OutputVersion(Join(segments, '.')) == Some(Concat(segments[..|segments| - 1]))
  {
    var n := |segments|;
    var init, last := segments[..n - 1], segments[n - 1];
    var head := Join(init, '.');
    assert Join(segments, '.') == head + ['.'] + last by {
      assert segments == init + [last];
      JoinSnoc(init, last, '.');
    }
    assert '.' !in last;
    OutputVersionOfLastDot(head, last);
    assert Without(head, '.') == Concat(init) by {
      assert forall i :: 0 <= i < |init| ==> init[i] == segments[i];
      WithoutJoin(init, '.');
    }
  }

  lemma OutputVersionOfLastDot(head: string, last: string)
    requires '.' !in last
    ensures OutputVersion(head + ['.'] + last) == Some(Without(head, '.'))
  {
    LastIndexOfBefore(head, '.', last);
    assert (head + ['.'] + last)[..|head|] == head;
  }

  /** The version of line 123 is made of digits and dots, so its output version
      is made of digits. */
  lemma {:induction false} WithoutDotsDigits(s: string)
    requires AllIn(s, DigitsDots)
    ensures AllDigits(Without(s, '.'))
    decreases |s|
  {
    if |s| > 0 {
      WithoutDotsDigits(s[1..]);
    }
  }

  lemma OutputVersionDigits(version: string)
    requires AllIn(version, DigitsDots) && '.' in version
    ensures AllDigits(OutputVersion(version).value)
  {
    var head := Remove(version, LastIndexOf(version, '.')).value;
    assert AllIn(head, DigitsDots) by {
      assert version == head + version[|head|..];
      forall i | 0 <= i < |head|
        ensures InClass(head[i], DigitsDots)
      {
        assert head[i] == version[i];
      }
    }
    WithoutDotsDigits(head);
  }

  /** `1.4.4.13` gives `144`. */
  lemma OutputVersionExample(version: string)
    requires version == "1.4.4.13"
    ensures OutputVersion(version) == Some("144")
  {
    var segments := ["1", "4", "4", "13"];
    ExampleSegments(segments, version);
    ExampleNoDots(segments);
    OutputVersionDropsRevision(segments);
    ExampleHead(segments);
  }

  lemma ExampleSegments(segments: seq<string>, version: string)
    requires segments == ["1", "4", "4", "13"] && version == "1.4.4.13"
    ensures Join(segments, '.') == version
  {
    var s1, s2, s3 := segments[1..], segments[1..][1..], segments[1..][1..][1..];
    assert s1 == ["4", "4", "13"] && s2 == ["4", "13"] && s3 == ["13"];
    assert Join(s2, '.') == "4.13" by {
      assert Join(s2, '.') == "4" + ['.'] + Join(s3, '.');
    }
    assert Join(s1, '.') == "4.4.13" by {
      assert Join(s1, '.') == "4" + ['.'] + Join(s2, '.');
    }
    assert Join(segments, '.') == "1" + ['.'] + Join(s1, '.');
  }

  lemma ExampleNoDots(segments: seq<string>)
    requires segments == ["1", "4", "4", "13"]
    ensures forall i :: 0 <= i < |segments| ==> '.' !in segments[i]
  {
    forall i | 0 <= i < |segments|
      ensures '.' !in segments[i]
    {
      assert AllDigits(segments[i]);
      DigitsInClass(segments[i], DigitsSlashes);
      assert forall k :: 0 <= k < |segments[i]| ==> segments[i][k] != '.';
    }
  }

  lemma ExampleHead(segments: seq<string>)
    requires segments == ["1", "4", "4", "13"]
    ensures Concat(segments[..|segments| - 1]) == "144"
  {
    var c := segments[..3];
    assert c == ["1", "4", "4"];
    assert c[1..] == ["4", "4"];
    assert c[1..][1..] == ["4"];
    assert c[1..][1..][1..] == [];
    assert Concat(c[1..][1..]) == "4";
    assert Concat(c[1..]) == "44";
  }

  // ---------------------------------------------------------------------------
  // The three replace passes

  /** `SetVersionTool(input, version)` at the moment `now`. */
  function SetVersionTool(input: string, version: string, now: Date): (r: Option<string>)
    ensures r.None? <==> '.' !in version
    ensures r.Some? ==> (|r.value| == 0 <==> |input| == 0)
  {
    var buildNumber := BuildNumber(now);
    match OutputVersion(version)
    case None => None
    case Some(output) =>
      var s1 := ReplaceAll(input, VersionField, "MyAppVersion \"" + version + "\"");
      var s2 := ReplaceAll(s1, BuildField, "MyAppBuildNo \"" + buildNumber + "\"");
      Some(ReplaceAll(s2, OutputField, "OutputVersion \"" + output + "\""))
  }

  /** Each replacement text is a field of its own pattern carrying the new value. */
  lemma ReplacementsAreFields(version: string, output: string, now: Date)
    ensures "MyAppVersion \"" + version + "\"" == Hit(VersionField, version)
    ensures "MyAppBuildNo \"" + BuildNumber(now) + "\"" == Hit(BuildField, BuildStamp(now))
    ensures "OutputVersion \"" + output + "\"" == Hit(OutputField, output)
  {
  }

  lemma VersionFieldValid() ensures Valid(VersionField) {}
  lemma BuildFieldValid() ensures Valid(BuildField) {}
  lemma OutputFieldValid() ensures Valid(OutputField) {}

  /** No field's match can be cut short or stretched by the start of another
      field, and no field can start inside another. */
  lemma VersionBuildApart()
    ensures Guards(VersionField, BuildField)
    ensures Separate(VersionField, BuildField) && Separate(BuildField, VersionField)
  {
    VersionBuildGuards();
    VersionBuildSeparate();
    BuildVersionSeparate();
  }

  lemma VersionBuildGuards() ensures Guards(VersionField, BuildField) {}

  lemma VersionBuildSeparate() ensures Separate(VersionField, BuildField) {
    ClashAt(BuildField.open, VersionField.open, 5);
  }

  lemma BuildVersionSeparate() ensures Separate(BuildField, VersionField) {
    ClashAt(VersionField.open, BuildField.open, 5);
  }

  lemma VersionOutputApart()
    ensures Guards(VersionField, OutputField)
    ensures Separate(VersionField, OutputField) && Separate(OutputField, VersionField)
  {
    VersionOutputGuards();
    VersionOutputSeparate();
    OutputVersionSeparate();
  }

  lemma VersionOutputGuards() ensures Guards(VersionField, OutputField) {}

  lemma VersionOutputSeparate() ensures Separate(VersionField, OutputField) {
    ClashAt(OutputField.open, VersionField.open, 0);
  }

  lemma OutputVersionSeparate() ensures Separate(OutputField, VersionField) {
    ClashAt(VersionField.open, OutputField.open, 0);
  }

  lemma BuildOutputApart()
    ensures Guards(BuildField, OutputField)
    ensures Separate(BuildField, OutputField) && Separate(OutputField, BuildField)
  {
    BuildOutputGuards();
    BuildOutputSeparate();
    OutputBuildSeparate();
  }

  lemma BuildOutputGuards() ensures Guards(BuildField, OutputField) {}

  lemma BuildOutputSeparate() ensures Separate(BuildField, OutputField) {
    ClashAt(OutputField.open, BuildField.open, 0);
  }

  lemma OutputBuildSeparate() ensures Separate(OutputField, BuildField) {
    ClashAt(BuildField.open, OutputField.open, 0);
  }

  /** After the rewrite each field carries its new value: replacing any of the
      three fields again, with the same value, changes nothing. */
  lemma SetVersionSettles(input: string, version: string, now: Date)
    requires AllIn(version, DigitsDots) && '.' in version
    ensures var t := SetVersionTool(input, version, now).value;
      && Settled(t, VersionField, version)
      && Settled(t, BuildField, BuildStamp(now))
      && Settled(t, OutputField, OutputVersion(version).value)
  {
    var output := OutputVersion(version).value;
    var stamp := BuildStamp(now);
    OutputVersionDigits(version);
    ReplacementsAreFields(version, output, now);
    VersionFieldValid();
    BuildFieldValid();
    OutputFieldValid();
    VersionBuildApart();
    VersionOutputApart();
    BuildOutputApart();
    var s1 := ReplaceAll(input, VersionField, Hit(VersionField, version));
    var s2 := ReplaceAll(s1, BuildField, Hit(BuildField, stamp));
    var t := ReplaceAll(s2, OutputField, Hit(OutputField, output));
    assert SetVersionTool(input, version, now) == Some(t);
    ReplaceIdempotent(input, VersionField, version);
    ReplaceKeepsSettled(s1, VersionField, version, BuildField, stamp);
    ReplaceKeepsSettled(s2, VersionField, version, OutputField, output);
    ReplaceIdempotent(s1, BuildField, stamp);
    ReplaceKeepsSettled(s2, BuildField, stamp, OutputField, output);
    ReplaceIdempotent(s2, OutputField, output);
  }

  /** Rewriting a rewritten script with the same version and date gives it back. */
  lemma SetVersionIdempotent(input: string, version: string, now: Date)
    requires AllIn(version, DigitsDots) && '.' in version
    ensures var t := SetVersionTool(input, version, now).value;
      SetVersionTool(t, version, now) == Some(t)
  {
    SetVersionSettles(input, version, now);
    ReplacementsAreFields(version, OutputVersion(version).value, now);
  }

  /** Every match of `p` in `t` is the field `Hit(p, v)`. */
  predicate FieldsHold(t: string, p: Pattern, v: string)
    requires |p.open| > 0
  {
    forall j :: 0 <= j < |t| && MatchLen(t[j..], p).Some? ==>
      MatchLen(t[j..], p) == Some(|Hit(p, v)|) && j + |Hit(p, v)| <= |t| && t[j..j + |Hit(p, v)|] == Hit(p, v)
  }

  lemma SettledFieldsHold(t: string, p: Pattern, v: string)
    requires Valid(p) && AllIn(v, p.cls) && Settled(t, p, v)
    ensures FieldsHold(t, p, v)
  {
    forall j | 0 <= j < |t| && MatchLen(t[j..], p).Some?
      ensures MatchLen(t[j..], p) == Some(|Hit(p, v)|) && j + |Hit(p, v)| <= |t| && t[j..j + |Hit(p, v)|] == Hit(p, v)
    {
      SettledEveryField(t, p, v, j);
    }
  }

  /** Every field of each kind in the rewritten script holds its new value. */
  lemma SetVersionFields(input: string, version: string, now: Date)
    requires AllIn(version, DigitsDots) && '.' in version
    ensures var t := SetVersionTool(input, version, now).value;
      && FieldsHold(t, VersionField, version)
      && FieldsHold(t, BuildField, BuildStamp(now))
      && FieldsHold(t, OutputField, OutputVersion(version).value)
  {
    var t := SetVersionTool(input, version, now).value;
    SetVersionSettles(input, version, now);
    OutputVersionDigits(version);
    VersionFieldValid();
    BuildFieldValid();
    OutputFieldValid();
    SettledFieldsHold(t, VersionField, version);
    SettledFieldsHold(t, BuildField, BuildStamp(now));
    SettledFieldsHold(t, OutputField, OutputVersion(version).value);
  }

  // ---------------------------------------------------------------------------
  // Text outside the fields

  /** No field of any of the three kinds can start in `s`, whatever follows it. */
  predicate Plain(s: string) {
    Blocks(s, VersionField) && Blocks(s, BuildField) && Blocks(s, OutputField)
  }

  /** A script whose only field is a version field: that field gets the new
      version and every other character is kept. */
  lemma SetVersionOnlyVersionField(a: string, x: string, b: string, version: string, now: Date)
    requires Plain(a) && Plain(b) && AllIn(x, DigitsDots)
    requires AllIn(version, DigitsDots) && '.' in version
    ensures SetVersionTool(a + Hit(VersionField, x) + b, version, now) == Some(a + Hit(VersionField, version) + b)
  {
    var output := OutputVersion(version).value;
    ReplacementsAreFields(version, output, now);
    VersionFieldValid();
    VersionBuildApart();
    VersionOutputApart();
    ReplaceOneField(a, x, b, VersionField, Hit(VersionField, version));
    ReplaceMissesField(a, version, b, VersionField, BuildField, Hit(BuildField, BuildStamp(now)));
    ReplaceMissesField(a, version, b, VersionField, OutputField, Hit(OutputField, output));
  }

  /** A script whose only field is a build field: that field gets the stamp of
      `now` and every other character is kept. */
  lemma SetVersionOnlyBuildField(a: string, x: string, b: string, version: string, now: Date)
    requires Plain(a) && Plain(b) && AllIn(x, DigitsSlashes)
    requires AllIn(version, DigitsDots) && '.' in version
    ensures SetVersionTool(a + Hit(BuildField, x) + b, version, now) == Some(a + Hit(BuildField, BuildStamp(now)) + b)
  {
    var output := OutputVersion(version).value;
    var stamp := BuildStamp(now);
    ReplacementsAreFields(version, output, now);
    BuildFieldValid();
    VersionBuildApart();
    BuildOutputApart();
    ReplaceMissesField(a, x, b, BuildField, VersionField, Hit(VersionField, version));
    ReplaceOneField(a, x, b, BuildField, Hit(BuildField, stamp));
    ReplaceMissesField(a, stamp, b, BuildField, OutputField, Hit(OutputField, output));
  }

  /** A script whose only field is an output-version field: that field gets the
      output version and every other character is kept. */
  lemma SetVersionOnlyOutputField(a: string, x: string, b: string, version: string, now: Date)
    requires Plain(a) && Plain(b) && AllIn(x, DigitsDots)
    requires AllIn(version, DigitsDots) && '.' in version
    ensures var output := OutputVersion(version).value;
      SetVersionTool(a + Hit(OutputField, x) + b, version, now) == Some(a + Hit(OutputField, output) + b)
  {
    var output := OutputVersion(version).value;
    ReplacementsAreFields(version, output, now);
    OutputFieldValid();
    VersionOutputApart();
    BuildOutputApart();
    ReplaceMissesField(a, x, b, OutputField, VersionField, Hit(VersionField, version));
    ReplaceMissesField(a, x, b, OutputField, BuildField, Hit(BuildField, BuildStamp(now)));
    ReplaceOneField(a, x, b, OutputField, Hit(OutputField, output));
  }

  /** A script with one field of each kind, in the order of `version.iss`:
      each field gets its new value and every other character is kept. */
  lemma SetVersionThreeFields(a: string, x: string, b: string, y: string, c: string, z: string, d: string,
                              version: string, now: Date)
    requires Plain(a) && Plain(b) && Plain(c) && Plain(d)
    requires AllIn(x, DigitsDots) && AllIn(y, DigitsSlashes) && AllIn(z, DigitsDots)
    requires AllIn(version, DigitsDots) && '.' in version
    ensures var output := OutputVersion(version).value;
      var input := a + Hit(VersionField, x) + b + Hit(BuildField, y) + c + Hit(OutputField, z) + d;
      SetVersionTool(input, version, now)
        == Some(a + Hit(VersionField, version) + b + Hit(BuildField, BuildStamp(now)) + c + Hit(OutputField, output) + d)
  {
    var output := OutputVersion(version).value;
    var stamp := BuildStamp(now);
    OutputVersionDigits(version);
    ReplacementsAreFields(version, output, now);
    VersionFieldValid();
    BuildFieldValid();
    OutputFieldValid();
    VersionBuildApart();
    VersionOutputApart();
    BuildOutputApart();
    // the version pass
    var tail1 := b + Hit(BuildField, y) + c + Hit(OutputField, z) + d;
    BlocksAround(b, y, c, VersionField, BuildField);
    BlocksAround(b + Hit(BuildField, y) + c, z, d, VersionField, OutputField);
    ReplaceOneField(a, x, tail1, VersionField, Hit(VersionField, version));
    // the build pass
    var head2 := a + Hit(VersionField, version) + b;
    var tail2 := c + Hit(OutputField, z) + d;
    BlocksAround(a, version, b, BuildField, VersionField);
    BlocksAround(c, z, d, BuildField, OutputField);
    ReplaceOneField(head2, y, tail2, BuildField, Hit(BuildField, stamp));
    // the output pass
    var head3 := a + Hit(VersionField, version) + b + Hit(BuildField, stamp) + c;
    BlocksAround(a, version, b, OutputField, VersionField);
    BlocksAround(a + Hit(VersionField, version) + b, stamp, c, OutputField, BuildField);
    ReplaceOneField(head3, z, d, OutputField, Hit(OutputField, output));
    ThreeFieldsRegroup(a, x, b, y, c, z, d, version, stamp, output);
  }

  lemma ThreeFieldsRegroup(a: string, x: string, b: string, y: string, c: string, z: string, d: string,
                           version: string, stamp: string, output: string)
    ensures a + Hit(VersionField, x) + b + Hit(BuildField, y) + c + Hit(OutputField, z) + d
      == a + Hit(VersionField, x) + (b + Hit(BuildField, y) + c + Hit(OutputField, z) + d)
    ensures a + Hit(VersionField, version) + (b + Hit(BuildField, y) + c + Hit(OutputField, z) + d)
      == (a + Hit(VersionField, version) + b) + Hit(BuildField, y) + (c + Hit(OutputField, z) + d)
    ensures (a + Hit(VersionField, version) + b) + Hit(BuildField, stamp) + (c + Hit(OutputField, z) + d)
      == (a + Hit(VersionField, version) + b + Hit(BuildField, stamp) + c) + Hit(OutputField, z) + d
  {
  }

  /** A script with none of the three fields comes back unchanged. */
  lemma SetVersionNoFields(input: string, version: string, now: Date)
    requires '.' in version
    requires forall j :: 0 <= j < |input| ==> MatchLen(input[j..], VersionField).None?
    requires forall j :: 0 <= j < |input| ==> MatchLen(input[j..], BuildField).None?
    requires forall j :: 0 <= j < |input| ==> MatchLen(input[j..], OutputField).None?
    ensures SetVersionTool(input, version, now) == Some(input)
  {
    var output := OutputVersion(version).value;
    ReplaceNoMatch(input, VersionField, "MyAppVersion \"" + version + "\"");
    ReplaceNoMatch(input, BuildField, "MyAppBuildNo \"" + BuildNumber(now) + "\"");
    ReplaceNoMatch(input, OutputField, "OutputVersion \"" + output + "\"");
  }
}

=== FILE: text.dfy ===
/**
 The handful of .NET string operations the packaging command relies on, over
 `string` = `seq<char>`: `Split(char)`, `LastIndexOf(char)`, `Remove(int)`,
 `Replace(".", "")` and the custom numeric format `"00"`.
 */
module Text {

  datatype Option<+T> = None | Some(value: T)

  predicate IsDigit(c: char) { '0' <= c <= '9' }

  predicate AllDigits(s: string) {
    forall i :: 0 <= i < |s| ==> IsDigit(s[i])
  }

  /** `x` is a prefix of `s`. */
  predicate IsPrefix(x: string, s: string) {
    |x| <= |s| && s[..|x|] == x
  }

  /** A non-empty slice is its first character followed by the rest. */
  lemma SliceCons(s: string, i: nat, k: nat)
    requires i < k <= |s|
    ensures s[i..k] == [s[i]] + s[i + 1..k]
  {
  }

  lemma SliceOfSlice(s: string, i: nat, m: nat)
    requires i + m <= |s|
    ensures s[i..][m..] == s[i + m..]
  {
  }

  lemma SliceOfSliceTo(s: string, i: nat, m: nat)
    requires i + m <= |s|
    ensures s[i..][..m] == s[i..i + m]
  {
  }

  /** Neither string is a prefix of the other: they differ at a position both have. */
  predicate Clash(x: string, y: string) {
    !IsPrefix(x, y) && !IsPrefix(y, x)
  }

  lemma ClashAt(x: string, y: string, d: nat)
    requires d < |x| && d < |y| && x[d] != y[d]
    ensures Clash(x, y)
  {
  }

  /** A string that clashes with `y` cannot be extended into one that starts with `y`. */
  lemma ClashNoPrefix(x: string, t: string, y: string)
    requires Clash(x, y)
    ensures !IsPrefix(y, x + t)
  {
    if |y| <= |x| {
      assert (x + t)[..|y|] == x[..|y|];
    } else {
      assert (x + t)[..|x|] == x;
    }
  }

  /** Whether `x` is a prefix of `u + v` is decided within `u` when `x`, should
      it reach past `u`, disagrees with the first character of `v` there. */
  lemma PrefixDecidedBefore(x: string, u: string, v: string)
    requires |u| < |x| ==> |v| > 0 && x[|u|] != v[0]
    ensures IsPrefix(x, u + v) <==> IsPrefix(x, u)
  {
    if |x| <= |u| {
      assert (u + v)[..|x|] == u[..|x|];
    } else if |x| <= |u + v| {
      assert (u + v)[..|x|][|u|] == v[0];
    }
  }

  /** An extension of `x` that is a prefix of `y` makes `x` a prefix of `y`. */
  lemma PrefixShorten(x: string, t: string, y: string)
    ensures IsPrefix(x + t, y) ==> IsPrefix(x, y)
  {
    if IsPrefix(x + t, y) {
      assert y[..|x|] == y[..|x + t|][..|x|];
      assert (x + t)[..|x|] == x;
    }
  }

  /** A string that clashes with `y` still clashes with it once extended. */
  lemma ClashExtend(x: string, t: string, y: string)
    requires Clash(x, y)
    ensures Clash(x + t, y)
  {
    ClashNoPrefix(x, t, y);
    PrefixShorten(x, t, y);
  }

  // ---------------------------------------------------------------------------
  // String.Split(char) and its inverse

  /** `s.Split(sep)`: the pieces between consecutive separators, empty pieces kept. */
  function Split(s: string, sep: char): (pieces: seq<string>)
    ensures |pieces| >= 1
    ensures forall i :: 0 <= i < |pieces| ==> sep !in pieces[i]
    decreases |s|
  {
    if |s| == 0 then [""]
    else
      var rest := Split(s[1..], sep);
      if s[0] == sep then [""] + rest
      else [[s[0]] + rest[0]] + rest[1..]
  }

  /** A split has one more piece than the string has separators. */
  lemma {:induction false} SplitCount(s: string, sep: char)
    ensures |Split(s, sep)| == multiset(s)[sep] + 1
    decreases |s|
  {
    if |s| > 0 {
      SplitCount(s[1..], sep);
      assert s == [s[0]] + s[1..];
      assert multiset(s) == multiset{s[0]} + multiset(s[1..]);
    }
  }

  /** `string.Join(sep, pieces)`. */
  function Join(pieces: seq<string>, sep: char): string
    requires |pieces| > 0
  {
    if |pieces| == 1 then pieces[0] else pieces[0] + [sep] + Join(pieces[1..], sep)
  }

  /** Joining the pieces of a split gives back the string. */
  lemma {:induction false} JoinSplit(s: string, sep: char)
    ensures Join(Split(s, sep), sep) == s
    decreases |s|
  {
    if |s| > 0 {
      JoinSplit(s[1..], sep);
      var rest := Split(s[1..], sep);
      if s[0] == sep {
        assert Split(s, sep) == [""] + rest;
        assert s == [sep] + s[1..];
      } else {
        var pieces := Split(s, sep);
        assert pieces == [[s[0]] + rest[0]] + rest[1..];
        if |rest| == 1 {
          assert s == [s[0]] + rest[0];
        } else {
          assert rest == [rest[0]] + rest[1..];
          assert Join(rest, sep) == rest[0] + [sep] + Join(rest[1..], sep);
          assert pieces[1..] == rest[1..];
          assert s == [s[0]] + s[1..];
        }
      }
    }
  }

  /** Text free of the separator only extends the first piece of what follows it. */
  lemma {:induction false} SplitAfterPlain(a: string, t: string, sep: char)
    requires sep !in a
    ensures Split(a + t, sep) == [a + Split(t, sep)[0]] + Split(t, sep)[1..]
    decreases |a|
  {
    if |a| > 0 {
      SplitAfterPlain(a[1..], t, sep);
      var st := Split(t, sep);
      var rest := Split(a[1..] + t, sep);
      assert (a + t)[1..] == a[1..] + t;
      assert (a + t)[0] == a[0] != sep;
      assert Split(a + t, sep) == [[a[0]] + rest[0]] + rest[1..];
      assert rest[0] == a[1..] + st[0];
      assert rest[1..] == st[1..];
      assert [a[0]] + (a[1..] + st[0]) == a + st[0];
    } else {
      assert a + t == t;
      assert a + Split(t, sep)[0] == Split(t, sep)[0];
      assert Split(t, sep) == [Split(t, sep)[0]] + Split(t, sep)[1..];
    }
  }

  /** Appending a piece to a join adds one separator and the piece. */
  lemma {:induction false} JoinSnoc(pieces: seq<string>, x: string, sep: char)
    requires |pieces| > 0
    ensures Join(pieces + [x], sep) == Join(pieces, sep) + [sep] + x
    decreases |pieces|
  {
    if |pieces| == 1 {
      assert (pieces + [x])[1..] == [x];
    } else {
      JoinSnoc(pieces[1..], x, sep);
      assert (pieces + [x])[1..] == pieces[1..] + [x];
    }
  }

  /** Splitting a join of separator-free pieces gives back the pieces. */
  lemma {:induction false} SplitJoin(pieces: seq<string>, sep: char)
    requires |pieces| > 0
    requires forall i :: 0 <= i < |pieces| ==> sep !in pieces[i]
    ensures Split(Join(pieces, sep), sep) == pieces
    decreases |pieces|
  {
    if |pieces| == 1 {
      SplitAfterPlain(pieces[0], "", sep);
      assert pieces[0] + "" == pieces[0];
    } else {
      var rest := pieces[1..];
      SplitJoin(rest, sep);
      var t := [sep] + Join(rest, sep);
      assert t[1..] == Join(rest, sep);
      assert Split(t, sep) == [""] + rest;
      SplitAfterPlain(pieces[0], t, sep);
      assert pieces[0] + [sep] + Join(rest, sep) == pieces[0] + t;
      assert pieces[0] + "" == pieces[0];
      assert pieces == [pieces[0]] + rest;
    }
  }

  // ---------------------------------------------------------------------------
  // LastIndexOf, Remove, Replace(c, "")

  /** `s.LastIndexOf(c)`: the position of the last `c`, or -1 when `s` has none. */
  function LastIndexOf(s: string, c: char): (r: int)
    ensures -1 <= r < |s|
    ensures r == -1 <==> c !in s
    ensures r >= 0 ==> s[r] == c && c !in s[r + 1..]
    decreases |s|
  {
    if |s| == 0 then -1
    else if s[|s| - 1] == c then |s| - 1
    else
      var r := LastIndexOf(s[..|s| - 1], c);
      LastIndexOfStep(s, c, r);
      r
  }

  /** The last `c` of a string not ending in `c` is the last `c` of its initial part. */
  lemma LastIndexOfStep(s: string, c: char, r: int)
    requires |s| > 0 && s[|s| - 1] != c && -1 <= r < |s| - 1
    requires r == -1 <==> c !in s[..|s| - 1]
    requires r >= 0 ==> s[..|s| - 1][r] == c && c !in s[..|s| - 1][r + 1..]
    ensures r == -1 <==> c !in s
    ensures r >= 0 ==> s[r] == c && c !in s[r + 1..]
  {
    var init, last := s[..|s| - 1], s[|s| - 1];
    assert s == init + [last];
    assert c in s <==> c in init || c == last;
    if r >= 0 {
      var after := init[r + 1..];
      assert s[r + 1..] == after + [last];
      assert c in s[r + 1..] <==> c in after || c == last;
    }
  }

  /** The last `c` of `s + [c] + x` is the one after `s` when `x` has none. */
  lemma LastIndexOfBefore(s: string, c: char, x: string)
    requires c !in x
    ensures LastIndexOf(s + [c] + x, c) == |s|
  {
    var t := s + [c] + x;
    assert t[|s|] == c;
    assert t[|s| + 1..] == x;
  }

  /** `s.Remove(start)` on .NET Framework: the first `start` characters; a
      start that is negative or not the index of a character of `s` throws
      ArgumentOutOfRangeException, modelled as `None`. */
  function Remove(s: string, start: int): (r: Option<string>)
    ensures r.Some? <==> 0 <= start < |s|
    ensures r.Some? ==> s == r.value + s[start..] && |r.value| == start
  {
    if 0 <= start < |s| then Some(s[..start]) else None
  }

  /** `s.Replace(c, "")`: `s` with every `c` deleted and the rest kept in order. */
  function Without(s: string, c: char): (r: string)
    ensures c !in r
    ensures |r| <= |s|
    decreases |s|
  {
    if |s| == 0 then ""
    else
      (if s[0] == c then "" else [s[0]]) + Without(s[1..], c)
  }

  /** Deleting `c` removes exactly the occurrences of `c`. */
  lemma {:induction false} WithoutCounts(s: string, c: char)
    ensures multiset(Without(s, c)) == multiset(s)[c := 0]
    decreases |s|
  {
    if |s| > 0 {
      WithoutCounts(s[1..], c);
      assert s == [s[0]] + s[1..];
      assert multiset(s) == multiset{s[0]} + multiset(s[1..]);
      var head := if s[0] == c then "" else [s[0]];
      assert multiset(Without(s, c)) == multiset(head) + multiset(Without(s[1..], c));
    }
  }

  lemma {:induction false} WithoutAppend(a: string, b: string, c: char)
    ensures Without(a + b, c) == Without(a, c) + Without(b, c)
    decreases |a|
  {
    if |a| == 0 {
      assert a + b == b;
    } else {
      WithoutAppend(a[1..], b, c);
      assert (a + b)[1..] == a[1..] + b;
      var head := if a[0] == c then "" else [a[0]];
      assert Without(a + b, c) == head + Without(a[1..] + b, c);
      assert Without(a, c) == head + Without(a[1..], c);
    }
  }

  /** Concatenation of a sequence of strings. */
  function Concat(pieces: seq<string>): string {
    if |pieces| == 0 then "" else pieces[0] + Concat(pieces[1..])
  }

  /** Deleting the separators of a join leaves the concatenation of its pieces. */
  lemma {:induction false} WithoutJoin(pieces: seq<string>, sep: char)
    requires |pieces| > 0
    requires forall i :: 0 <= i < |pieces| ==> sep !in pieces[i]
    ensures Without(Join(pieces, sep), sep) == Concat(pieces)
    decreases |pieces|
  {
    WithoutPlain(pieces[0], sep);
    if |pieces| == 1 {
      assert Concat(pieces) == pieces[0] + Concat([]);
    } else {
      var tail := Join(pieces[1..], sep);
      assert Without(tail, sep) == Concat(pieces[1..]) by {
        WithoutJoin(pieces[1..], sep);
      }
      assert Without([sep] + tail, sep) == Without(tail, sep) by {
        WithoutAppend([sep], tail, sep);
      }
      assert Without(pieces[0] + ([sep] + tail), sep) == pieces[0] + Without([sep] + tail, sep) by {
        WithoutAppend(pieces[0], [sep] + tail, sep);
      }
      assert Join(pieces, sep) == pieces[0] + ([sep] + tail);
    }
  }

  lemma {:induction false} WithoutPlain(s: string, c: char)
    requires c !in s
    ensures Without(s, c) == s
    decreases |s|
  {
    if |s| > 0 {
      WithoutPlain(s[1..], c);
      assert s == [s[0]] + s[1..];
    }
  }

  // ---------------------------------------------------------------------------
  // Decimal formatting: int.ToString("00")

  function DigitChar(d: nat): (c: char)
    requires d < 10
    ensures IsDigit(c)
  {
    ('0' as int + d) as char
  }

  function DigitValue(c: char): (d: nat)
    requires IsDigit(c)
    ensures d < 10 && DigitChar(d) == c
  {
    c as int - '0' as int
  }

  /** The value of a string of decimal digits, most significant first. */
  function DecimalValue(s: string): nat
    requires AllDigits(s)
  {
    if |s| == 0 then 0 else 10 * DecimalValue(s[..|s| - 1]) + DigitValue(s[|s| - 1])
  }

  /** The decimal digits of `n` with no leading zero. */
  function Digits(n: nat): (r: string)
    ensures AllDigits(r) && |r| >= 1
    ensures n < 10 <==> |r| == 1
    ensures n < 100 ==> |r| <= 2
    ensures n < 10000 ==> |r| <= 4
    decreases n
  {
    if n < 10 then [DigitChar(n)] else Digits(n / 10) + [DigitChar(n % 10)]
  }

  lemma {:induction false} DigitsValue(n: nat)
    ensures DecimalValue(Digits(n)) == n
    decreases n
  {
    if n >= 10 {
      DigitsValue(n / 10);
      var r := Digits(n);
      assert r[..|r| - 1] == Digits(n / 10);
      assert DigitValue(r[|r| - 1]) == n % 10;
    }
  }

  /** `n.ToString("00")`: the digits of `n`, padded with zeros to at least two. */
  function Format00(n: nat): (r: string)
    ensures AllDigits(r) && |r| >= 2
    ensures n < 100 ==> |r| == 2
    ensures n < 10000 ==> |r| <= 4
  {
    if n < 10 then "0" + Digits(n) else Digits(n)
  }

  /** Reading back the formatted number gives the number. */
  lemma Format00Value(n: nat)
    ensures DecimalValue(Format00(n)) == n
  {
    DigitsValue(n);
    if n < 10 {
      var r := Format00(n);
      assert r[..1] == "0";
      assert DecimalValue("0") == 10 * DecimalValue("") + 0;
    }
  }
}

=== FILE: version_extractor.dfy ===
/**
 `GetVersionTool` and the lines of `Execute` that turn its match into a
 version: the first `[assembly: AssemblyVersion("…")]` declaration of the
 AssemblyInfo text, split on `"`, middle piece.
 */
module VersionExtractor {
  import opened Text
  import opened Regex

  /** `\[assembly: AssemblyVersion\("[0-9.]*"\)\]` */
  const AssemblyVersionDecl := Pattern("[assembly: AssemblyVersion(\"", DigitsDots, "\")]")

  /** The two pieces of a declaration around its quoted version. */
  const DeclHead := "[assembly: AssemblyVersion("
  const DeclTail := ")]"

  /** A regex match: where it starts and the text it covers (`Match.Index`, `Match.Value`). */
  datatype Match = Match(index: nat, value: string)

  /** `GetVersionTool`: the leftmost declaration in the text, or null when there is none. */
  function GetVersionTool(text: string): (r: Option<Match>)
    ensures r.Some? ==>
      && r.value.index + |r.value.value| <= |text|
      && text[r.value.index..r.value.index + |r.value.value|] == r.value.value
      && InLang(r.value.value, AssemblyVersionDecl)
  {
    match FindFirst(text, AssemblyVersionDecl)
    case None => None
    case Some(i) =>
      var m := MatchLen(text[i..], AssemblyVersionDecl).value;
      MatchSound(text[i..], AssemblyVersionDecl);
      SliceOfSliceTo(text, i, m);
      Some(Match(i, text[i..i + m]))
  }

  /** The match found is the leftmost one, and there is none only when no
      position of the text starts a declaration. */
  lemma GetVersionToolLeftmost(text: string)
    ensures GetVersionTool(text).None? <==>
      forall j :: 0 <= j <= |text| ==> MatchLen(text[j..], AssemblyVersionDecl).None?
    ensures GetVersionTool(text).Some? ==>
      var r := GetVersionTool(text).value;
      && MatchLen(text[r.index..], AssemblyVersionDecl) == Some(|r.value|)
      && forall j :: 0 <= j < r.index ==> MatchLen(text[j..], AssemblyVersionDecl).None?
  {
  }

  /** A declaration split on `"` gives exactly three pieces, the version in the middle. */
  lemma DeclarationPieces(v: string)
    requires AllIn(v, DigitsDots)
    ensures Split(Hit(AssemblyVersionDecl, v), '"') == [DeclHead, v, DeclTail]
  {
    forall i | 0 <= i < |v|
      ensures v[i] != '"'
    {
      assert InClass(v[i], DigitsDots);
    }
    var pieces := [DeclHead, v, DeclTail];
    assert Join(pieces, '"') == DeclHead + ['"'] + (v + ['"'] + DeclTail) by {
      assert pieces[1..] == [v, DeclTail];
      assert pieces[1..][1..] == [DeclTail];
      assert Join(pieces[1..][1..], '"') == DeclTail;
      assert Join(pieces[1..], '"') == v + ['"'] + DeclTail;
    }
    assert Hit(AssemblyVersionDecl, v) == DeclHead + ['"'] + (v + ['"'] + DeclTail);
    SplitJoin(pieces, '"');
  }

  /** Lines 117-123 of `Execute`: the non-empty match split on `"`, kept only when
      it has more than two pieces; the version is the middle one. */
  function ExtractVersion(text: string): (r: Option<string>)
    ensures r.Some? <==> GetVersionTool(text).Some?
    ensures r.Some? ==>
      && AllIn(r.value, DigitsDots)
      && GetVersionTool(text).value.value == Hit(AssemblyVersionDecl, r.value)
  {
    match GetVersionTool(text)
    case None => None
    case Some(m) =>
      if |m.value| == 0 then None
      else
        var pieces := Split(m.value, '"');
        DeclarationPieces(Inner(m.value, AssemblyVersionDecl));
        if |pieces| > 2 then Some(pieces[1]) else None
  }

  /** The version of a declaration that opens the text is the declared one. */
  lemma ExtractLeadingDeclaration(v: string, rest: string)
    requires AllIn(v, DigitsDots)
    ensures ExtractVersion(Hit(AssemblyVersionDecl, v) + rest) == Some(v)
  {
    var text := Hit(AssemblyVersionDecl, v) + rest;
    MatchesOwnHit(AssemblyVersionDecl, v, rest);
    GetVersionToolLeftmost(text);
    assert text[0..] == text;
    var m := GetVersionTool(text).value;
    assert m.index == 0;
    assert |m.value| == |Hit(AssemblyVersionDecl, v)|;
    assert m.value == text[..|m.value|];
    var r := ExtractVersion(text).value;
    assert Hit(AssemblyVersionDecl, r) == Hit(AssemblyVersionDecl, v);
    assert r == Hit(AssemblyVersionDecl, r)[|DeclHead| + 1..|Hit(AssemblyVersionDecl, r)| - 3];
  }

  /** Whenever a declaration is found, it holds exactly two quotes and its
      split has three pieces, so the guard of line 122 never rejects it. */
  lemma SplitGuardAlwaysPasses(text: string)
    requires GetVersionTool(text).Some?
    ensures |GetVersionTool(text).value.value| > 0
    ensures |Split(GetVersionTool(text).value.value, '"')| == 3
    ensures multiset(GetVersionTool(text).value.value)['"'] == 2
  {
    var w := GetVersionTool(text).value.value;
    DeclarationPieces(Inner(w, AssemblyVersionDecl));
    SplitCount(w, '"');
  }

  /** The declaration of a typical AssemblyInfo file. */
  lemma ExtractExample(text: string)
    requires text == "[assembly: AssemblyVersion(\"1.4.4.13\")]"
    ensures ExtractVersion(text) == Some("1.4.4.13")
  {
    var v := "1.4.4.13";
    assert AllIn(v, DigitsDots) by {
      assert IsDigit(v[0]) && v[1] == '.' && IsDigit(v[2]) && v[3] == '.';
      assert IsDigit(v[4]) && v[5] == '.' && IsDigit(v[6]) && IsDigit(v[7]);
    }
    assert Hit(AssemblyVersionDecl, v) + "" == text;
    ExtractLeadingDeclaration(v, "");
  }
}
